=== FILE: README.md ===
# stress-es in Dafny

A Dafny model of the core of stress-es, a set of Go benchmarks that load an
Elasticsearch cluster with the records of a workflow-visibility store.

- **Search-after traversal** (`searchafter_visibility.go`):
  - the page-token codec;
  - `searchOnePage`, which decides when a page carries a continuation token;
  - `hitsToRecords`;
  - the loop that pages through a sorted result set;
  - the shared accumulators and the report `main` prints from them.
- **Bulk-update benchmarks** (`update_insight_bulk.go`, `update_insight_bulk2.go`):
  - `reverse`/`getDocID` and the input defaulting;
  - the FNV-1a key choice `getKeyIndex2` and the document and update ids;
  - the bounded-retry bulk loop.
- **Consistency checker** (`check.go`):
  - turning a line of the input file into a document id;
  - batching the ids 1000 at a time for multi-get;
  - reporting every record whose CloseTime is 0.
- **Scroll benchmark** (`scroll_visibility.go`):
  - the page loop of `scroll_helper`;
  - the lock-protected max/sum merge in `main`.

The backend is modelled in two ways:

- For the token rule, it is an arbitrary reply: a sequence of hits with sort values.
- For the traversal, it is an ideal index: the matching records as a sequence
  in the query's sort order, CloseTime descending and then RunID descending.

Inputs the programs read from the outside become parameters:

- the server's `TookInMillis`;
- the measured latency;
- the outcome of each bulk request;
- the answers of the scroll service;
- the multi-get lookup.

Go semantics the results depend on are written out:

- division that truncates toward zero (`GoInt.Quot`);
- `uint32` wrap-around in `getKeyIndex2`;
- `panic`s, modelled as `Failure` values of `Panics.Panic`;
- the `t++` that still runs after a `continue`.

Modules, one per concern:

| module | file | concern |
|---|---|---|
| `Wrappers` | wrappers.dfy | `Option` and `Result` |
| `GoInt` | go_int.dfy | Go integer semantics |
| `Panics` | panics.dfy | the ways a program panics |
| `Decimal` | decimal.dfy | `strconv.Itoa` and digit parsing |
| `Visibility` | visibility.dfy | records and their sort order |
| `PageTokens` | page_token.dfy | the page-token codec |
| `SearchAfter` | search_after.dfy | `searchOnePage` and the ideal backend |
| `Traversal` | traversal.dfy | the traversal loop |
| `Harness` | harness.dfy | `main` of the search-after benchmark |
| `DocIds` | doc_ids.dfy | `reverse`, `getDocID`, input defaults |
| `KeyIndex` | key_index.dfy | FNV-1a and the ids of the second bulk benchmark |
| `BulkRetry` | bulk_retry.dfy | the retry loop |
| `CheckIds` | check_ids.dfy | `check.go` |
| `Scroll` | scroll.dfy | `scroll_visibility.go` |

## Behaviour the model keeps

- **Most failures end the process.** On the search path of
  searchafter_visibility.go every error is a `panic`, which ends the whole
  process, including the other traversals. So are the errors that
  update_insight_bulk.go and check.go check. The model makes such a panic a
  `Failure` of the operation and does not continue past it. Two failures are
  handled instead:
  - a scroll error (scroll_visibility.go:54-56) is printed and ends the page
    loop (`Scroll.Leading`);
  - a failed bulk request (update_insight_bulk2.go:91-98) is printed and
    retried, with its `panic` commented out (`BulkRetry.RetryLoop`).

  Three failures are never looked at:
  - the error of `IndexExists` (update_insight_bulk.go:42) is discarded;
  - the per-item errors of a bulk response (update_insight_bulk.go:86-99)
    are never read, so a request whose items failed still counts as done;
  - check.go:39-43 never calls `scanner.Err()`, so a read error or a line
    longer than the scanner's 64 KiB limit quietly ends the input, and the
    ids read so far are still checked.
- **When a token is produced.** A first page carries a continuation token
  only when it is full. A continuation page carries one whenever it is
  non-empty (`searchafter_visibility.go:124`). The model keeps this rule
  (`SearchAfter.TokenHitIndex`, `SearchAfter.BuildResponse`). Whether the loop
  continues is decided by the caller's `ActualHits == pageSize` test alone.

## Model

| member | source | states |
|---|---|---|
| PageTokens.RoundTrip | searchafter_visibility.go:37-52 | every token decodes back from its serialized bytes unchanged |
| PageTokens.DeserializeSound | searchafter_visibility.go:37-44 | any bytes the decoder accepts are exactly the serialization of the token it returns |
| PageTokens.DeserializeExact | searchafter_visibility.go:37-52 | bytes decode to token `t` if and only if they are `t`'s serialization |
| PageTokens.MalformedRejected | searchafter_visibility.go:37-44 | bytes that serialize no token are rejected with an error, never turned into a token |
| PageTokens.UnquoteEscape | searchafter_visibility.go:46-52 | reading an escaped string body back up to its closing quote yields the original string and consumes exactly the body and the quote |
| PageTokens.ParseNumberShow | searchafter_visibility.go:46-52 | reading the decimal rendering of any integer followed by a non-digit yields that value and stops where the digits stop |
| Decimal.ShowIntInjective | update_insight_bulk2.go:68 | `strconv.Itoa` never renders two different integers the same way |
| Decimal.ReadShow | searchafter_visibility.go:46-52 | reading back the decimal rendering of any integer gives that integer |
| Visibility.PrecedesStrictTotal | searchafter_visibility.go:83 | the sort order of the query (CloseTime, then RunID, both descending) is irreflexive, asymmetric and total on distinct keys |
| Visibility.LexLessTransitive | searchafter_visibility.go:83 | the byte order on run ids is transitive |
| Visibility.PrecedesTransitive | searchafter_visibility.go:83 | the sort order of the query is transitive, so with `PrecedesStrictTotal` it is a strict total order |
| SearchAfter.TokenOfHit | searchafter_visibility.go:125-133 | a token is built from a hit exactly when its first sort value is an int64 number and its second a string, and it carries those two values; otherwise the program panics |
| SearchAfter.NonNumberSortValuePanics | searchafter_visibility.go:94-99 | a full first page whose last hit has a first sort value that is not a `json.Number` panics with unusable sort values |
| SearchAfter.HitsToRecords | searchafter_visibility.go:157-172 | one record per hit, in hit order, each the hit's source |
| SearchAfter.NextToken | searchafter_visibility.go:94-140 | a first page wants a token exactly when it is full, a continuation page exactly when it is non-empty. The token is always the serialized key of the page's last hit. Wanting one from an empty page (page size 0) panics with an index out of range, and a last hit with unusable sort values panics |
| SearchAfter.BuildResponse | searchafter_visibility.go:93-151 | first page: a token exactly when the page is full. Continuation page: a token exactly when it is non-empty. The token is the serialized key of the page's last hit, so a full page always carries one. The only panics: a token is wanted from an empty page (index out of range), or the last hit's sort values are unusable |
| SearchAfter.SearchOnePage | searchafter_visibility.go:69-153 | a malformed request token panics; a negative page size fails in the backend; a first-page request returns the first `pageSize` records |
| SearchAfter.AfterKey | searchafter_visibility.go:117 | on a sorted index, searching after the key of record `k` returns exactly the records after `k`, skipping none and repeating none |
| Traversal.FirstPage | searchafter_visibility.go:85-108 | the first page holds the first `pageSize` records, and carries the key of record `pageSize-1` exactly when the index holds at least `pageSize` records |
| Traversal.NextPage | searchafter_visibility.go:109-151 | resending the key of record `k` returns the next `pageSize` records after `k`, with the key of the last of them as token when there is one |
| Traversal.FetchFirst | searchafter_visibility.go:85-108 | `searchOnePage` without a token cannot panic and returns the first page with its token rule |
| Traversal.FetchNext | searchafter_visibility.go:109-141 | `searchOnePage` with the token of a previous full page cannot panic on a sorted index and continues right after that page |
| Traversal.Step | searchafter_visibility.go:233-235 | one turn of the loop keeps the traversal invariant and either sees new records or reaches the end of the index with a short page |
| Traversal.Extended | searchafter_visibility.go:233-243 | appending the next response keeps the traversal invariant: every page but the last is full, and the records seen are a prefix of the index in order |
| Traversal.Traverse | searchafter_visibility.go:222-244 | a traversal fetches `M/P + 1` pages for `M` records and page size `P` (that is, ⌈M/P⌉ when `P` does not divide `M`). It sees every record exactly once, in sort order. Every page but the last is full and the last is short. The accumulators hold the page count, the first fetch's server time, and the sums of hits and of the fetches' server times and latencies |
| Traversal.SumsOfInputs | searchafter_visibility.go:228-240 | when page `i` reports fetch `i`'s server time and latency, the summed times and latencies are the sums of the inputs over the fetches made |
| Traversal.HitsCountRecords | searchafter_visibility.go:228-240 | the hits counted page by page add up to the number of records seen |
| Harness.SearchAfterConfig | searchafter_visibility.go:183-188 | a non-positive request count becomes 1 and a non-positive page size becomes 1000; positive inputs are kept |
| Harness.RunSearchAfter | searchafter_visibility.go:211-261 | `times` traversals (1 when not positive) against one index each fetch `M/P + 1` pages and count all `M` hits (`Traversal.Traverse` shows the records are the index, in order). Traversal `k`'s summary holds its first fetch's server time and the sums of its fetches' server times and latencies. The printed report is the one the code computes: its average hit count is `M`, and its total time and latency are the means over the traversals |
| Harness.ConstantTimesMisreported | searchafter_visibility.go:183-261 | two traversals of an index that fits on one page, every fetch taking 10 ms on the server and 10 ms on the wire: `main` prints 5 for the first-page time, the per-page time and the per-page latency, and 10 for the totals |
| Harness.RunAsWrittenSums | searchafter_visibility.go:224-249 | after the traversals run one after the other, the shared total time, total hits and latency are the sums of each traversal's figures |
| Harness.AsWrittenTotalsAgree | searchafter_visibility.go:224-261 | the report as written and the corrected report agree on the total time, the total latency and the average hit count |
| Harness.UniformTraversalsReportTheirValues | searchafter_visibility.go:255-261 | when every traversal reports the same figures, the corrected report prints exactly those figures |
| Harness.PageTookAsWrittenIsWrong | searchafter_visibility.go:229-257 | two traversals that each average 10 ms per page are reported as 3 ms per page as written, and as 10 ms by the corrected report |
| Harness.PageLatencyAsWrittenIsWrong | searchafter_visibility.go:248-259 | per-page latency of 10 ms is reported as 5 ms as written, because it is divided by `times` twice; the corrected report gives 10 ms |
| Harness.FirstPageTookAsWrittenIsWrong | searchafter_visibility.go:226-256 | a first-page time of 10 ms in both traversals is reported as 5 ms as written, because it is overwritten and then divided by `times`; the corrected report gives 10 ms |
| Harness.RunEvenPair | searchafter_visibility.go:224-249 | the shared accumulators after two traversals run one after the other, as the code updates them |
| DocIds.Reverse | update_insight_bulk.go:181-187 | the reversed string has the same length, and rune `i` ends up at position `len-1-i` |
| DocIds.ReverseRunes | update_insight_bulk.go:181-187 | swapping runes pairwise from both ends computes the reversal |
| DocIds.ReverseInvolution | update_insight_bulk.go:181-187 | reversing twice gives back the original string |
| DocIds.DocIdPalindrome | update_insight_bulk.go:177-179 | a document id has `2*len(s)+1` runes and reads the same backwards |
| DocIds.DocIdInjective | update_insight_bulk.go:177-179 | distinct base ids give distinct document ids |
| DocIds.BulkConfig | update_insight_bulk.go:128-138 | thread count, requests per thread and bulk size default to 1, 10 and 20000 when not positive; positive inputs are kept |
| KeyIndex.Uint32 | update_insight_bulk2.go:199 | `uint32(x)` is below 2^32 and leaves values already in range unchanged |
| KeyIndex.GetKeyIndex2 | update_insight_bulk2.go:194-201 | fails (divides by zero) exactly when `uint32(numOfStates)` is 0. Otherwise the index is below `n`, and with offset 0 it is the FNV-1a hash modulo `n` |
| KeyIndex.WrappedIndex | update_insight_bulk2.go:200 | the index computed with a 32-bit sum is below `n`, and with offset 0 it is the hash modulo `n` |
| KeyIndex.KeyIndexIntendedInjective | update_insight_bulk2.go:194-201 | for one document, distinct offsets below `n` pick distinct state keys |
| KeyIndex.NoWrapBelowHalfRange | update_insight_bulk2.go:194-201 | while `numOfStates <= 2^31` (5000 in `initData2`), the code computes exactly the intended index |
| KeyIndex.WrapCollision | update_insight_bulk2.go:199-200 | with `n = 2^32-1`, offsets 2128831034 and 2128831035 of the empty id both yield key 0 as written, where the intended keys are 0 and 1 |
| KeyIndex.BaseDocId | update_insight_bulk2.go:167-168 | the base id has `2*len(u)+2` runes, starts with the uuid, ends with `_`, and what precedes that `_` reads the same backwards |
| KeyIndex.BaseDocIdInjective | update_insight_bulk2.go:167-168 | distinct uuids give distinct base ids |
| KeyIndex.UpdateIdInjective | update_insight_bulk2.go:68-73 | under one base id, distinct (document number, state key) pairs give distinct update ids |
| BulkRetry.RetryLoop | update_insight_bulk2.go:56-112 | Attempts are successes plus retries. There are at most 20 retries and at most `times` successes. The loop stops only when all batches are done or the retries are used up. Attempt `k` sends the batch after the ones already done. Server and request time are summed over successful attempts only |
| BulkRetry.FailedBatchIsResent | update_insight_bulk2.go:96-98 | after a failed attempt the same batch number is sent again; after a success, the next one |
| CheckIds.LineToId | check.go:42 | panics exactly on a line shorter than two bytes. Otherwise the id drops the first and last byte and has every space replaced by `~`, so it contains no space |
| CheckIds.JoinSplitReplaces | check.go:42 | splitting at spaces and joining with `~` replaces each space by `~` and keeps every other character |
| CheckIds.LinesToIds | check.go:38-43 | fails exactly when some line is shorter than two bytes; otherwise gives one id per line, each that line's id |
| CheckIds.Batches | check.go:48-58 | `len/1000 + 1` batches; every batch but the last holds 1000 ids and the last holds the remainder; together they are the ids in order |
| CheckIds.FoundPrefixIs | check.go:67-72 | the records checked are those of the documents before the first document without a source |
| CheckIds.ZeroCloseTimesMembers | check.go:73-75 | a record is reported if and only if it is among those checked and its CloseTime is 0 |
| CheckIds.ZeroCloseTimesAppend | check.go:67-76 | checking two runs of records one after the other reports the concatenation of their reports |
| CheckIds.Check | check.go:61-77 | `check` panics exactly when some document has no source. It reports the CloseTime-0 records among the documents before that one, in order |
| CheckIds.CheckNext | check.go:51-57 | one call of `check` on the next batch either extends what has been reported or ends the run with the final report and a panic |
| CheckIds.CheckBatches | check.go:48-58 | checking the batches one after the other reports what one check of all the ids would: the CloseTime-0 records before the first missing document, and a panic exactly when one is missing |
| CheckIds.CheckAll | check.go:25-59 | a short line panics before anything is reported; otherwise the run reports as one check of the ids of all lines |
| Scroll.Leading | scroll_visibility.go:47-57 | the pages read are a prefix of the answers, all pages, ending at the first end-of-results or error |
| Scroll.MaxTook | scroll_visibility.go:61-63 | the maximum page time is at least 0 and at least every page's time, and is 0 or some page's time |
| Scroll.ScrollHelper | scroll_visibility.go:46-66 | Returns the sums of the page times and hit counts and the maximum page time. The average divides the time sum by one more than the number of pages, because the loop counter also counts the call that ended the scroll |
| Scroll.AverageAtMostMax | scroll_visibility.go:59-66 | with no negative page time, the reported average page time lies between 0 and the reported maximum |
| Scroll.Merge | scroll_visibility.go:98-113 | the merged maximum is at least 0 and at least every worker's maximum, and is 0 or some worker's maximum |
| Scroll.AbsorbCommutes | scroll_visibility.go:106-113 | adding two workers' numbers under the lock gives the same totals in either order |
| Scroll.MergeRemove | scroll_visibility.go:102-116 | the totals of all workers equal the totals of the others followed by any one of them |
| Scroll.MergeOrderIrrelevant | scroll_visibility.go:102-116 | the totals do not depend on the order in which the workers finish |
| Scroll.ReportOf | scroll_visibility.go:119-122 | the printed maximum is the merged maximum, and the printed average hit count is the total hit count divided by `times`, truncated |
| Scroll.ScrollMain | scroll_visibility.go:85-122 | `times` (1 when not positive) workers each report their own scroll's sums, average and maximum, the report is the merge of them, and no page of any worker took longer than the printed maximum |

## Left out

- JSON encoding in general: the token codec is the fixed format
  `{"CloseTime":N,"RunID":"..."}` that `json.Marshal` produces for a
  `PageToken`. Only `"` and `\` are escaped in RunID.
- PageTokens.Deserialize: `json.Unmarshal` also accepts inputs that were never
  produced by the encoder. Examples are `null`, `{}`, whitespace, other field
  orders, `\u` escapes, and `-0`. The model rejects them, so its decoder
  accepts exactly the encoder's outputs.
- UTF-8: strings are sequences of characters. `json.Marshal`'s escaping of
  control characters, of invalid UTF-8 and (HTML-safe) of `<`, `>` and `&`
  is not modelled. Go's `[]rune(s)` turns invalid UTF-8 bytes into U+FFFD, so
  `reverse` is not an involution on such strings; a Dafny string cannot hold
  them, so `DocIds.ReverseInvolution` speaks only of valid text. The ids the
  program reverses are ASCII uuids.
- The Elasticsearch client:
  - connections and index creation;
  - the match and range filter queries;
  - the building of bulk, scroll and multi-get requests.
  The backend of the traversal is an ideal sorted index of the matching
  records. The backend of the token rule is an arbitrary reply.
- Sort values: every hit's sort values are assumed to arrive as
  `json.Number` and string (`SearchAfter.HitOf`). The client of
  common/esClient.go:23-26 installs no number decoder; the line that would
  (searchafter_visibility.go:190) is commented out. With the default decoder
  the CloseTime sort value is a `float64`, and the assertion
  `sorts[0].(json.Number)` would panic on every full first page.
  `SearchAfter.NonNumberSortValuePanics` states that panic for a reply whose
  sort value is not a number.
- Backend errors: the ideal backend fails only for a negative page size, and
  the multi-get lookup never fails. So the panics on a backend error at
  searchafter_visibility.go:88-92 and 117-121 and check.go:63-66 are not
  reached in the model.
- `hitsToRecords` source decoding: each hit carries its decoded record. The
  `json.Unmarshal` of `*hit.Source` and its panic are not modelled.
- SearchAfter.SearchOnePage: a negative page size is modelled as a backend
  error (`SearchFailed`), because the real backend's behaviour for it is not
  part of the program.
- Clocks, `rand`, `uuid` and the network: server times, latencies, the
  outcome of each bulk request, the scroll answers and the multi-get answers
  are parameters. Which documents and keys the random generator picks is
  not modelled; the id lemmas hold for every pick.
- Concurrency:
  - The goroutines of the search-after benchmark share their accumulators,
    and the read-modify-write of `avgTook` and `avgLatency` interleaves.
    Only the schedule in which traversals run one after the other is
    modelled (`Harness.RunAsWritten`).
  - The scroll merge is modelled for every finishing order
    (`Scroll.MergeOrderIrrelevant`).
- Harness.RunSearchAfter, Scroll.ScrollMain, BulkRetry.RetryLoop: sums are
  unbounded integers. The int64 overflow of the accumulators is not modelled.
- `updateInsightBulk` (update_insight_bulk.go:31-112): its loop panics on the
  first failed bulk request. Its per-request body is random. Only `getDocID`,
  `reverse` and the input defaults of that file are modelled.
- The per-thread averages written back through pointers
  (update_insight_bulk2.go:114-119) and the report of that `main`
  (update_insight_bulk2.go:159-163) are not modelled. They are plain
  divisions of the sums `BulkRetry.RetryLoop` returns.
- `reverse2` (update_insight_bulk2.go:186-192) is a copy of `reverse`. It is
  modelled by `DocIds.Reverse` and `DocIds.ReverseRunes`.
- `scroll_helper`'s final `if err != nil` (scroll_visibility.go:70-72) has
  no `err` in scope. The only `err` is declared inside the loop body (line
  49). None is declared earlier in `scroll_helper`, and none at package level
  in the files of this model, so the file does not compile as written. The
  model reads it as: a scroll error only ends the loop. Had `err` been
  declared before the loop and assigned by it, line 70 would panic after every
  scroll, even one that ended normally, because `io.EOF` is not `nil`.
- Scroll.ScrollHelper: when the scripted answers run out without an
  end-of-results or error, the model treats that as the end of the scroll.
- Scroll: the page size and the `sorted` flag only shape the backend's
  request. They are not modelled.
- CheckIds.CheckBatches: the last `check` call may send an empty multi-get
  (when the number of ids is a multiple of 1000). Its answer is taken to be
  empty; the real backend's behaviour for it is not part of the program.
- CheckIds.Check: a document that was not found has no source, and
  `*doc.Source` dereferences nil. This panic is modelled by an absent record.
  Other unmarshal errors are not modelled.
- Reading the input file (`bufio.Scanner`, its line-length limit, and
  `\r\n` endings) is not modelled: the lines are an input. A read error or
  an over-long line ends the input without any report, as described above.

## Findings

| source | as written | input that shows it | evidently intended | confidence | as-written member | corrected member |
|---|---|---|---|---|---|---|
| searchafter_visibility.go:229-257 | every traversal adds its page times to the shared `avgTook`, which still holds the previous traversal's quotient, then divides by the global page count; the result is divided by `times` again | two traversals of 3 and 5 pages each averaging 10 ms per page: printed 3; from `main` itself, two one-page traversals at 10 ms also print 5 (Harness.ConstantTimesMisreported) | the mean over traversals of each traversal's average page time (10) | medium, not executed | Harness.PageTookAsWrittenIsWrong | Harness.UniformTraversalsReportTheirValues |
| searchafter_visibility.go:248-259 | `avgLatency` is already the global latency divided by the global page count, and it is divided by `times` once more when printed | the same two traversals with 10 ms of latency per page: printed 5; from `main` itself, two one-page traversals at 10 ms also print 5 (Harness.ConstantTimesMisreported) | the mean per-page latency (10) | medium, not executed | Harness.PageLatencyAsWrittenIsWrong | Harness.UniformTraversalsReportTheirValues |
| searchafter_visibility.go:226-256 | `firstPageTook` is overwritten by each traversal rather than added to, then divided by `times` | two traversals whose first page took 10 ms: printed 5; from `main` itself, two one-page traversals at 10 ms also print 5 (Harness.ConstantTimesMisreported) | the mean first-page time (10) | high, not executed | Harness.FirstPageTookAsWrittenIsWrong | Harness.UniformTraversalsReportTheirValues |
| update_insight_bulk2.go:199-200 | `hash % n + uint32(offset)` is taken modulo 2^32 before `% n`, so for `n > 2^31` the sum can wrap and two offsets can pick the same key | `n = 2^32-1`, empty id, offsets 2128831034 and 2128831035: both give key 0 | `(hash % n + offset) % n` without wrap-around, distinct for distinct offsets below `n` | low (the program uses n = 5000, where no wrap occurs), not executed | KeyIndex.WrapCollision | KeyIndex.KeyIndexIntendedInjective |

=== FILE: bulk_retry.dfy ===
/** The bounded-retry bulk loop of `updateInsightBulk2`: batch `t` is sent
    until it succeeds; a failure re-sends the same batch number and counts one
    retry; the loop ends after `times` successful batches or 20 retries in
    all. The outcome of the k-th attempt (counting from 0) is an input. */
module BulkRetry {

  const MaxRetry := 20

  /** What a bulk call reports: failure, or the server's `Took` and the
      measured request time. */
  datatype BulkOutcome = BulkFailed | BulkDone(took: int, elapsed: int)

  datatype RetryRun = RetryRun(
    batchNos: seq<int>,   // the `t` of each attempt, in order
    succeeded: nat,
    retry: nat,
    bulkUsed: int,
    timeUsed: int)

  /** Successful attempts among the first `k`. */
  function Successes(outcome: nat -> BulkOutcome, k: nat): nat {
    if k == 0 then 0 else Successes(outcome, k - 1) + (if outcome(k - 1).BulkDone? then 1 else 0)
  }

  /** Server time summed over the successful attempts among the first `k`. */
  function TookOfSuccesses(outcome: nat -> BulkOutcome, k: nat): int {
    if k == 0 then 0
    else TookOfSuccesses(outcome, k - 1) + (if outcome(k - 1).BulkDone? then outcome(k - 1).took else 0)
  }

  /** Request time summed over the successful attempts among the first `k`. */
  function ElapsedOfSuccesses(outcome: nat -> BulkOutcome, k: nat): int {
    if k == 0 then 0
    else ElapsedOfSuccesses(outcome, k - 1) + (if outcome(k - 1).BulkDone? then outcome(k - 1).elapsed else 0)
  }

  /** Attempt `k` sends the batch after the ones already done. */
  ghost predicate Numbered(batchNos: seq<int>, outcome: nat -> BulkOutcome) {
    forall k :: 0 <= k < |batchNos| ==> batchNos[k] == Successes(outcome, k) + 1
  }

  lemma NumberedAppend(batchNos: seq<int>, outcome: nat -> BulkOutcome, t: int)
    requires Numbered(batchNos, outcome) && t == Successes(outcome, |batchNos|) + 1
    ensures Numbered(batchNos + [t], outcome)
  {
  }

  /** Lines 56-112: the bulk loop, with each request replaced by its outcome. */
  method RetryLoop(times: int, outcome: nat -> BulkOutcome) returns (run: RetryRun)
    // attempts are successes plus retries, and the retries are exactly the failures
    ensures |run.batchNos| == run.succeeded + run.retry
    ensures run.succeeded == Successes(outcome, |run.batchNos|)
    // bounds
    ensures run.retry <= MaxRetry
    ensures run.succeeded <= (if times > 0 then times else 0)
    ensures |run.batchNos| <= (if times > 0 then times else 0) + MaxRetry
    // it stops only when all batches are done or the retries are used up
    ensures run.succeeded == (if times > 0 then times else 0) || run.retry == MaxRetry
    // attempt k sends the batch after the ones already done: a failure re-sends the same number
    ensures forall k :: 0 <= k < |run.batchNos| ==> run.batchNos[k] == Successes(outcome, k) + 1
    // time is accumulated over successful batches only
    ensures run.bulkUsed == TookOfSuccesses(outcome, |run.batchNos|)
    ensures run.timeUsed == ElapsedOfSuccesses(outcome, |run.batchNos|)
  {
    var bulkUsed := 0;
    var timeUsed := 0;
    var retry := 0;
    var batchNos := [];
    var t := 1;
    while t <= times && retry < MaxRetry
      invariant 1 <= t && (times >= 0 ==> t <= times + 1) && (times < 0 ==> t == 1)
      invariant 0 <= retry <= MaxRetry
      invariant |batchNos| == t - 1 + retry
      invariant t - 1 == Successes(outcome, |batchNos|)
      invariant Numbered(batchNos, outcome)
      invariant bulkUsed == TookOfSuccesses(outcome, |batchNos|)
      invariant timeUsed == ElapsedOfSuccesses(outcome, |batchNos|)
      decreases times - t + MaxRetry - retry
    {
      var k := |batchNos|;
      NumberedAppend(batchNos, outcome, t);
      batchNos := batchNos + [t];
      if outcome(k).BulkFailed? {
        // `t--; retry++; continue`, and `continue` still runs `t++`
        t := t - 1;
        retry := retry + 1;
      } else {
        timeUsed := timeUsed + outcome(k).elapsed;
        bulkUsed := bulkUsed + outcome(k).took;
      }
      t := t + 1;
    }
    run := RetryRun(batchNos, t - 1, retry, bulkUsed, timeUsed);
  }

  /** Consecutive attempts: after a failure the same batch number is sent
      again, after a success the next one. */
  lemma FailedBatchIsResent(batchNos: seq<int>, outcome: nat -> BulkOutcome)
    requires forall k :: 0 <= k < |batchNos| ==> batchNos[k] == Successes(outcome, k) + 1
    ensures forall k :: 0 <= k < |batchNos| - 1 ==>
      batchNos[k + 1] == batchNos[k] + (if outcome(k).BulkDone? then 1 else 0)
  {
    forall k | 0 <= k < |batchNos| - 1
      ensures batchNos[k + 1] == batchNos[k] + (if outcome(k).BulkDone? then 1 else 0)
    {
      assert batchNos[k + 1] == Successes(outcome, k + 1) + 1;
    }
  }
}

=== FILE: check_ids.dfy ===
/** The consistency checker (`check.go`): each input line becomes a document
    id, ids are sent to multi-get in batches of 1000, and every returned
    record whose CloseTime is 0 is reported. Strings here are byte strings,
    one element per byte, which is what Go's slicing indexes. */
module CheckIds {
  import opened Wrappers
  import opened Panics
  import opened Visibility

  const BatchSize := 1000

  /** `strings.Split(s, " ")`: the pieces between spaces, always at least one. */
  function SplitSpaces(s: string): (parts: seq<string>)
    ensures |parts| >= 1
  {
    if s == [] then [[]]
    else
      var rest := SplitSpaces(s[1..]);
      if s[0] == ' ' then [[]] + rest else [[s[0]] + rest[0]] + rest[1..]
  }

  /** `strings.Join(parts, sep)`. */
  function Join(parts: seq<string>, sep: string): string {
    if parts == [] then []
    else if |parts| == 1 then parts[0]
    else parts[0] + sep + Join(parts[1..], sep)
  }

  /** The character-wise reading of split-then-join: every space becomes `~`. */
  predicate TildeFor(s: string, r: string) {
    |r| == |s| && forall i :: 0 <= i < |s| ==> r[i] == (if s[i] == ' ' then '~' else s[i])
  }

  lemma JoinCons(c: char, p: string, tail: seq<string>, sep: string)
    ensures Join([[c] + p] + tail, sep) == [c] + Join([p] + tail, sep)
  {
    if tail != [] {
      assert ([[c] + p] + tail)[1..] == tail;
      assert ([p] + tail)[1..] == tail;
    }
  }

  lemma {:induction false} JoinSplitReplaces(s: string)
    ensures TildeFor(s, Join(SplitSpaces(s), "~"))
  {
    if s != [] {
      var rest := SplitSpaces(s[1..]);
      JoinSplitReplaces(s[1..]);
      var j := Join(rest, "~");
      if s[0] == ' ' {
        assert ([[]] + rest)[1..] == rest;
        assert Join(SplitSpaces(s), "~") == "~" + j;
      } else {
        JoinCons(s[0], rest[0], rest[1..], "~");
        assert [rest[0]] + rest[1..] == rest;
        assert Join(SplitSpaces(s), "~") == [s[0]] + j;
      }
      TildeCons(s, Join(SplitSpaces(s), "~"), j);
    }
  }

  /** `TildeFor` extends by one leading character. */
  lemma TildeCons(s: string, r: string, j: string)
    requires |s| >= 1 && TildeFor(s[1..], j)
    requires r == [if s[0] == ' ' then '~' else s[0]] + j
    ensures TildeFor(s, r)
  {
    forall i | 0 <= i < |s|
      ensures r[i] == (if s[i] == ' ' then '~' else s[i])
    {
      if i > 0 {
        assert r[i] == j[i - 1] && s[i] == s[1..][i - 1];
      }
    }
  }

  /** Line 42: drop the first and last byte and replace every space with `~`.
      A line shorter than two bytes makes the slice panic. */
  function LineToId(line: string): (r: Result<string, Panic>)
    ensures r.Failure? <==> |line| < 2
    ensures r.Failure? ==> r.error == SliceOutOfRange
    ensures r.Success? ==>
      && |r.value| == |line| - 2
      && (forall i :: 0 <= i < |r.value| ==> r.value[i] != ' ')
      && (forall i :: 0 <= i < |r.value| ==>
            r.value[i] == (if line[i + 1] == ' ' then '~' else line[i + 1]))
  {
    if |line| < 2 then Failure(SliceOutOfRange)
    else
      var inner := line[1..|line| - 1];
      JoinSplitReplaces(inner);
      Success(Join(SplitSpaces(inner), "~"))
  }

  /** All batches, in order, run together. */
  function Flatten(batches: seq<seq<string>>): seq<string> {
    if batches == [] then [] else Flatten(batches[..|batches| - 1]) + batches[|batches| - 1]
  }

  lemma FlattenAppend(batches: seq<seq<string>>, b: seq<string>)
    ensures Flatten(batches + [b]) == Flatten(batches) + b
  {
    assert (batches + [b])[..|batches|] == batches;
  }

  /** Lines 48-58: an item is added per id; after id `i` with `i % 1000 == 999`
      the items so far are checked and cleared; whatever is left (possibly
      nothing) is checked at the end. */
  method Batches(ids: seq<string>) returns (batches: seq<seq<string>>)
    ensures |batches| == |ids| / BatchSize + 1
    ensures forall k :: 0 <= k < |batches| - 1 ==> |batches[k]| == BatchSize
    ensures |batches[|batches| - 1]| == |ids| % BatchSize
    ensures Flatten(batches) == ids
  {
    var items: seq<string> := [];
    batches := [];
    var i := 0;
    while i < |ids|
      invariant 0 <= i <= |ids|
      invariant Flatten(batches) + items == ids[..i]
      invariant |batches| == i / BatchSize && |items| == i % BatchSize
      invariant forall k :: 0 <= k < |batches| ==> |batches[k]| == BatchSize
    {
      items := items + [ids[i]];
      if i % BatchSize == BatchSize - 1 {
        FlattenAppend(batches, items);
        batches := batches + [items];
        items := [];
      }
      i := i + 1;
    }
    FlattenAppend(batches, items);
    batches := batches + [items];
  }

  lemma {:induction false} FlattenPrefix(batches: seq<seq<string>>, k: nat)
    requires k <= |batches|
    ensures Flatten(batches[..k]) <= Flatten(batches)
    decreases |batches| - k
  {
    if k < |batches| {
      FlattenPrefix(batches, k + 1);
      assert batches[..k + 1] == batches[..k] + [batches[k]];
      FlattenAppend(batches[..k], batches[k]);
    } else {
      assert batches[..k] == batches;
    }
  }

  /** The records with CloseTime 0, in their order. */
  function ZeroCloseTimes(rs: seq<VisibilityRecord>): (z: seq<VisibilityRecord>)
    ensures |z| <= |rs|
  {
    if rs == [] then []
    else ZeroCloseTimes(rs[..|rs| - 1]) + (if rs[|rs| - 1].closeTime == 0 then [rs[|rs| - 1]] else [])
  }

  /** A record is reported exactly when it is among the inputs and its
      CloseTime is 0. */
  lemma {:induction false} ZeroCloseTimesMembers(rs: seq<VisibilityRecord>, r: VisibilityRecord)
    ensures r in ZeroCloseTimes(rs) <==> r in rs && r.closeTime == 0
  {
    if rs != [] {
      var front := rs[..|rs| - 1];
      ZeroCloseTimesMembers(front, r);
      assert rs == front + [rs[|rs| - 1]];
    }
  }

  /** The sources of the documents before the first one without a source. */
  function FoundPrefix(docs: seq<Option<VisibilityRecord>>): (rs: seq<VisibilityRecord>)
    ensures |rs| <= |docs|
  {
    if docs == [] || docs[0].None? then [] else [docs[0].value] + FoundPrefix(docs[1..])
  }

  /** The found prefix is exactly the documents up to the first missing one. */
  lemma {:induction false} FoundPrefixIs(docs: seq<Option<VisibilityRecord>>)
    ensures var rs := FoundPrefix(docs);
      && (forall i :: 0 <= i < |rs| ==> docs[i] == Some(rs[i]))
      && (|rs| < |docs| ==> docs[|rs|].None?)
  {
    if docs != [] && docs[0].Some? {
      FoundPrefixIs(docs[1..]);
      var rs := FoundPrefix(docs);
      assert forall i :: 1 <= i < |rs| ==> rs[i] == FoundPrefix(docs[1..])[i - 1] && docs[i] == docs[1..][i - 1];
    }
  }

  /** `check`: go through the multi-get response in order and report each
      record whose CloseTime is 0. A document without a source (one that was
      not found) is dereferenced as nil, and the checker panics there. */
  method Check(docs: seq<Option<VisibilityRecord>>) returns (reported: seq<VisibilityRecord>, panicked: bool)
    ensures panicked <==> exists i :: 0 <= i < |docs| && docs[i].None?
    ensures reported == ZeroCloseTimes(FoundPrefix(docs))
  {
    reported := [];
    panicked := false;
    var i := 0;
    ghost var seen: seq<VisibilityRecord> := [];
    FoundPrefixIs(docs);
    while i < |docs|
      invariant 0 <= i <= |docs|
      invariant |seen| == i && forall k :: 0 <= k < i ==> docs[k] == Some(seen[k])
      invariant seen == FoundPrefix(docs)[..i]
      invariant reported == ZeroCloseTimes(seen)
    {
      if docs[i].None? {
        panicked := true;
        assert FoundPrefix(docs) == seen;
        return;
      }
      var source := docs[i].value;
      assert (seen + [source])[..i] == seen;
      seen := seen + [source];
      if source.closeTime == 0 {
        reported := reported + [source];
      }
      i := i + 1;
    }
    assert FoundPrefix(docs) == seen;
  }

  /** Lines 38-43: every line becomes an id; the first short line panics. */
  function LinesToIds(lines: seq<string>): (r: Result<seq<string>, Panic>)
    ensures r.Failure? <==> exists i :: 0 <= i < |lines| && |lines[i]| < 2
    ensures r.Failure? ==> r.error == SliceOutOfRange
    ensures r.Success? ==> |r.value| == |lines|
    ensures r.Success? ==> forall i :: 0 <= i < |lines| ==> LineToId(lines[i]) == Success(r.value[i])
  {
    if lines == [] then Success([])
    else
      var id :- LineToId(lines[0]);
      var rest :- LinesToIds(lines[1..]);
      assert forall i :: 1 <= i < |lines| ==> lines[i] == lines[1..][i - 1];
      Success([id] + rest)
  }

  /** The multi-get answer for some ids, looked up one by one. */
  function Lookups(ids: seq<string>, lookup: string -> Option<VisibilityRecord>): (docs: seq<Option<VisibilityRecord>>)
    ensures |docs| == |ids| && forall i :: 0 <= i < |ids| ==> docs[i] == lookup(ids[i])
  {
    seq(|ids|, i requires 0 <= i < |ids| => lookup(ids[i]))
  }

  lemma {:induction false} ZeroCloseTimesAppend(a: seq<VisibilityRecord>, b: seq<VisibilityRecord>)
    ensures ZeroCloseTimes(a + b) == ZeroCloseTimes(a) + ZeroCloseTimes(b)
    decreases |b|
  {
    if b == [] {
      assert a + b == a;
    } else {
      var b' := b[..|b| - 1];
      assert (a + b)[..|a + b| - 1] == a + b';
      assert b[..|b| - 1] == b';
      ZeroCloseTimesAppend(a, b');
    }
  }

  lemma {:induction false} FoundPrefixAppend(a: seq<Option<VisibilityRecord>>, b: seq<Option<VisibilityRecord>>)
    requires forall i :: 0 <= i < |a| ==> a[i].Some?
    ensures FoundPrefix(a + b) == FoundPrefix(a) + FoundPrefix(b)
  {
    if a == [] {
      assert a + b == b;
    } else {
      var tail := a[1..];
      FoundPrefixAppend(tail, b);
      assert (a + b)[1..] == tail + b;
    }
  }



  /** The state of the batch loop after `b` batches: every document so far
      was found, and the records with CloseTime 0 among them were reported. */
  ghost predicate Checked(batches: seq<seq<string>>, b: nat, lookup: string -> Option<VisibilityRecord>,
                          reported: seq<VisibilityRecord>)
    requires b <= |batches|
  {
    var done := Lookups(Flatten(batches[..b]), lookup);
    && (forall i :: 0 <= i < |done| ==> done[i].Some?)
    && reported == ZeroCloseTimes(FoundPrefix(done))
  }

  /** What the whole run reports when the documents are `docs`. */
  ghost predicate CheckedAll(docs: seq<Option<VisibilityRecord>>, reported: seq<VisibilityRecord>,
                             failure: Option<Panic>)
  {
    && reported == ZeroCloseTimes(FoundPrefix(docs))
    && (failure.Some? <==> exists i :: 0 <= i < |docs| && docs[i].None?)
    && (failure.Some? ==> failure.value == NilSource)
  }

  /** One call of `check` inside the batch loop. */
  method CheckNext(batches: seq<seq<string>>, b: nat, lookup: string -> Option<VisibilityRecord>,
                   reported: seq<VisibilityRecord>)
    returns (reported': seq<VisibilityRecord>, panicked: bool)
    requires b < |batches| && Checked(batches, b, lookup, reported)
    ensures !panicked ==> Checked(batches, b + 1, lookup, reported')
    ensures panicked ==> CheckedAll(Lookups(Flatten(batches), lookup), reported', Some(NilSource))
  {
    ghost var done := Lookups(Flatten(batches[..b]), lookup);
    var part := Lookups(batches[b], lookup);
    var r;
    r, panicked := Check(part);
    BatchSeen(batches, b, lookup, done, part);
    BatchReported(done, part);
    reported' := reported + r;
    if panicked {
      BatchPanicked(batches, b, lookup, done, part);
    }
  }

  /** A batch with a missing document ends the run with everything reported
      that one check over all the ids would have reported. */
  lemma BatchPanicked(batches: seq<seq<string>>, b: nat, lookup: string -> Option<VisibilityRecord>,
                      done: seq<Option<VisibilityRecord>>, part: seq<Option<VisibilityRecord>>)
    requires b < |batches|
    requires done + part == Lookups(Flatten(batches[..b + 1]), lookup)
    requires exists i :: 0 <= i < |part| && part[i].None?
    ensures exists i :: 0 <= i < |Lookups(Flatten(batches), lookup)| && Lookups(Flatten(batches), lookup)[i].None?
    ensures FoundPrefix(done + part) == FoundPrefix(Lookups(Flatten(batches), lookup))
  {
    var j :| 0 <= j < |part| && part[j].None?;
    assert (done + part)[|done| + j] == part[j];
    FlattenPrefix(batches, b + 1);
    LookupsPrefix(Flatten(batches[..b + 1]), Flatten(batches), lookup, done + part);
  }

  /** Lines 48-58 with the multi-get answered by `lookup`: every batch is
      checked in turn, and the first panic ends the run. `lookup` stands for
      the index: the source of the document with that id, or `None` when
      there is none. What is reported is what one check over all the ids
      would have reported. */
  method CheckBatches(batches: seq<seq<string>>, lookup: string -> Option<VisibilityRecord>)
    returns (reported: seq<VisibilityRecord>, failure: Option<Panic>)
    ensures CheckedAll(Lookups(Flatten(batches), lookup), reported, failure)
  {
    reported := [];
    failure := None;
    var b := 0;
    while b < |batches|
      invariant 0 <= b <= |batches|
      invariant Checked(batches, b, lookup, reported)
    {
      var panicked;
      reported, panicked := CheckNext(batches, b, lookup, reported);
      if panicked {
        failure := Some(NilSource);
        return;
      }
      b := b + 1;
    }
    assert batches[..b] == batches;
  }

  /** `main`: the ids are built from the lines, batched and checked. */
  method CheckAll(lines: seq<string>, lookup: string -> Option<VisibilityRecord>)
    returns (reported: seq<VisibilityRecord>, failure: Option<Panic>)
    ensures (exists i :: 0 <= i < |lines| && |lines[i]| < 2) ==>
      reported == [] && failure == Some(SliceOutOfRange)
    ensures LinesToIds(lines).Success? ==>
      CheckedAll(Lookups(LinesToIds(lines).value, lookup), reported, failure)
  {
    var parsed := LinesToIds(lines);
    if parsed.Failure? {
      return [], Some(parsed.error);
    }
    var batches := Batches(parsed.value);
    reported, failure := CheckBatches(batches, lookup);
  }

  /** The documents seen so far grow by one batch. */
  lemma BatchSeen(batches: seq<seq<string>>, b: nat, lookup: string -> Option<VisibilityRecord>,
                  done: seq<Option<VisibilityRecord>>, part: seq<Option<VisibilityRecord>>)
    requires b < |batches|
    requires done == Lookups(Flatten(batches[..b]), lookup)
    requires part == Lookups(batches[b], lookup)
    ensures done + part == Lookups(Flatten(batches[..b + 1]), lookup)
  {
    assert batches[..b + 1] == batches[..b] + [batches[b]];
    FlattenAppend(batches[..b], batches[b]);
    LookupsAppend(Flatten(batches[..b]), batches[b], lookup);
  }

  /** After a batch with every document found, the reported records grow by
      the batch's. */
  lemma BatchReported(done: seq<Option<VisibilityRecord>>, part: seq<Option<VisibilityRecord>>)
    requires forall i :: 0 <= i < |done| ==> done[i].Some?
    ensures ZeroCloseTimes(FoundPrefix(done + part))
         == ZeroCloseTimes(FoundPrefix(done)) + ZeroCloseTimes(FoundPrefix(part))
  {
    FoundPrefixAppend(done, part);
    ZeroCloseTimesAppend(FoundPrefix(done), FoundPrefix(part));
  }

  lemma LookupsAppend(a: seq<string>, b: seq<string>, lookup: string -> Option<VisibilityRecord>)
    ensures Lookups(a + b, lookup) == Lookups(a, lookup) + Lookups(b, lookup)
  {
    var l, r := Lookups(a + b, lookup), Lookups(a, lookup) + Lookups(b, lookup);
    assert |l| == |r|;
    forall i | 0 <= i < |l| ensures l[i] == r[i] {
      if i < |a| { assert (a + b)[i] == a[i]; } else { assert (a + b)[i] == b[i - |a|]; }
    }
  }

  /** Once a missing document is among the ids looked up so far, the whole
      answer has a missing document and its found prefix ends inside them. */
  lemma LookupsPrefix(seen: seq<string>, all: seq<string>, lookup: string -> Option<VisibilityRecord>,
                      done: seq<Option<VisibilityRecord>>)
    requires seen <= all && done == Lookups(seen, lookup)
    requires exists i :: 0 <= i < |done| && done[i].None?
    ensures exists i :: 0 <= i < |Lookups(all, lookup)| && Lookups(all, lookup)[i].None?
    ensures FoundPrefix(done) == FoundPrefix(Lookups(all, lookup))
  {
    assert all == seen + all[|seen|..];
    LookupsAppend(seen, all[|seen|..], lookup);
    FoundPrefixOfMissing(done, Lookups(all[|seen|..], lookup));
  }

  lemma {:induction false} FoundPrefixOfMissing(a: seq<Option<VisibilityRecord>>, b: seq<Option<VisibilityRecord>>)
    requires exists i :: 0 <= i < |a| && a[i].None?
    ensures FoundPrefix(a + b) == FoundPrefix(a)
  {
    if a[0].Some? {
      assert (a + b)[1..] == a[1..] + b;
      var i :| 0 <= i < |a| && a[i].None?;
      assert a[1..][i - 1].None?;
      FoundPrefixOfMissing(a[1..], b);
    }
  }
}

=== FILE: decimal.dfy ===
/** Decimal rendering of integers, as produced by `strconv.Itoa` and by
    `encoding/json` for an integer field, and its inverse on digit strings. */
module Decimal {

  predicate IsDigit(c: char) {
    '0' <= c <= '9'
  }

  predicate AllDigits(s: string) {
    forall i :: 0 <= i < |s| ==> IsDigit(s[i])
  }

  /** A non-empty digit string with no superfluous leading zero. */
  predicate Canonical(s: string) {
    |s| >= 1 && AllDigits(s) && (|s| > 1 ==> s[0] != '0')
  }

  function DigitChar(d: nat): (c: char)
    requires d < 10
    ensures IsDigit(c)
  {
    ('0' as int + d) as char
  }

  function DigitValue(c: char): (d: nat)
    requires IsDigit(c)
    ensures d < 10
  {
    c as int - '0' as int
  }

  /** Decimal digits of `n`, most significant first. */
  function ShowNat(n: nat): (s: string)
    ensures Canonical(s)
    ensures n == 0 <==> s == "0"
  {
    if n < 10 then [DigitChar(n)] else ShowNat(n / 10) + [DigitChar(n % 10)]
  }

  /** `strconv.Itoa`: a minus sign for negative numbers, then the digits. */
  function ShowInt(i: int): (s: string)
    ensures |s| >= 1
    ensures i >= 0 ==> Canonical(s)
    ensures i < 0 ==> s[0] == '-' && Canonical(s[1..]) && s[1..] != "0"
  {
    if i < 0 then "-" + ShowNat(-i) else ShowNat(i)
  }

  function ParseDigits(s: string): nat
    requires AllDigits(s)
  {
    if s == [] then 0 else ParseDigits(s[..|s| - 1]) * 10 + DigitValue(s[|s| - 1])
  }

  /** Length of the longest prefix of `s` made of digits. */
  function SpanDigits(s: string): (k: nat)
    ensures k <= |s|
    ensures AllDigits(s[..k])
    ensures k < |s| ==> !IsDigit(s[k])
  {
    if s == [] || !IsDigit(s[0]) then 0 else 1 + SpanDigits(s[1..])
  }

  lemma {:induction false} ParseShow(n: nat)
    ensures ParseDigits(ShowNat(n)) == n
  {
    if n >= 10 {
      var s := ShowNat(n / 10) + [DigitChar(n % 10)];
      assert s[..|s| - 1] == ShowNat(n / 10);
      ParseShow(n / 10);
    }
  }

  lemma {:induction false} CanonicalPositive(s: string)
    requires Canonical(s) && s != "0"
    ensures ParseDigits(s) >= 1
  {
    if |s| > 1 {
      var p := s[..|s| - 1];
      assert p[0] == s[0];
      CanonicalPositive(p);
    } else {
      assert s == [s[0]];
    }
  }

  lemma {:induction false} ShowParse(s: string)
    requires Canonical(s)
    ensures ShowNat(ParseDigits(s)) == s
  {
    if |s| > 1 {
      var p := s[..|s| - 1];
      assert p[0] == s[0];
      CanonicalPositive(p);
      ShowParse(p);
      var n := ParseDigits(s);
      assert n / 10 == ParseDigits(p) && n % 10 == DigitValue(s[|s| - 1]);
      assert s == p + [s[|s| - 1]];
    } else {
      assert s == [s[0]];
    }
  }

  lemma {:induction false} SpanOfDigitsThen(d: string, tail: string)
    requires AllDigits(d)
    requires tail == [] || !IsDigit(tail[0])
    ensures SpanDigits(d + tail) == |d|
  {
    if d != [] {
      assert (d + tail)[1..] == d[1..] + tail;
      SpanOfDigitsThen(d[1..], tail);
    } else {
      assert d + tail == tail;
    }
  }

  /** Reads back what `ShowInt` renders. */
  function ReadInt(s: string): int {
    if |s| > 0 && s[0] == '-' && AllDigits(s[1..]) then 0 - ParseDigits(s[1..])
    else if AllDigits(s) then ParseDigits(s)
    else 0
  }

  lemma ReadShow(v: int)
    ensures ReadInt(ShowInt(v)) == v
  {
    var s := ShowInt(v);
    if v < 0 {
      assert s[1..] == ShowNat(-v);
      ParseShow(-v);
    } else {
      assert s[0] != '-';
      ParseShow(v);
    }
  }

  /** `strconv.Itoa` is injective: distinct integers render differently. */
  lemma ShowIntInjective(a: int, b: int)
    requires ShowInt(a) == ShowInt(b)
    ensures a == b
  {
    ReadShow(a);
    ReadShow(b);
  }
}

=== FILE: doc_ids.dfy ===
/** Document-id helpers of the bulk-update benchmarks: rune reversal and
    `getDocID`, plus the input defaulting their `main` functions share.
    A string here is its sequence of runes. */
module DocIds {
  import opened GoInt

  /** The reversal `reverse` computes: rune `i` ends up at `len-1-i`. */
  function Reverse(s: string): (r: string)
    ensures |r| == |s|
    ensures forall i :: 0 <= i < |s| ==> r[i] == s[|s| - 1 - i]
  {
    if s == [] then [] else Reverse(s[1..]) + [s[0]]
  }

  /** `reverse` (and its copy `reverse2`): swap runes pairwise from both ends
      toward the middle. */
  method ReverseRunes(s: string) returns (r: string)
    ensures r == Reverse(s)
  {
    r := s;
    var i, j := 0, |r| - 1;
    while i < |r| / 2
      invariant |r| == |s|
      invariant 0 <= i <= |s| / 2 && j == |s| - 1 - i
      invariant forall k :: 0 <= k < i ==> r[k] == s[|s| - 1 - k] && r[|s| - 1 - k] == s[k]
      invariant forall k :: i <= k < |s| - i ==> r[k] == s[k]
    {
      r := r[i := r[j]][j := r[i]];
      i, j := i + 1, j - 1;
    }
  }

  /** Reversing twice gives back the original string. */
  lemma ReverseInvolution(s: string)
    ensures Reverse(Reverse(s)) == s
  {
    assert forall i :: 0 <= i < |s| ==> Reverse(Reverse(s))[i] == s[i];
  }

  /** `getDocID`. */
  function DocId(s: string): string {
    s + "_" + Reverse(s)
  }

  /** A doc id has `2*len(s)+1` runes and reads the same backwards. */
  lemma DocIdPalindrome(s: string)
    ensures |DocId(s)| == 2 * |s| + 1
    ensures Reverse(DocId(s)) == DocId(s)
  {
    var d := DocId(s);
    forall i | 0 <= i < |d|
      ensures Reverse(d)[i] == d[i]
    {
      var m := |d| - 1 - i;
      if i < |s| {
        assert d[i] == s[i];
        assert d[m] == Reverse(s)[m - |s| - 1] == s[i];
      } else if i > |s| {
        assert d[i] == Reverse(s)[i - |s| - 1] == s[2 * |s| - i];
        assert d[m] == s[m];
      }
    }
  }

  /** Distinct base ids give distinct doc ids. */
  lemma DocIdInjective(a: string, b: string)
    requires DocId(a) == DocId(b)
    ensures a == b
  {
    assert |a| == |b|;
    assert a == DocId(a)[..|a|];
    assert b == DocId(b)[..|b|];
  }

  /** The default inputs of the bulk-update benchmarks' `main`: a thread
      count, a request count per thread and a bulk size, each positive. */
  function BulkConfig(threads: int, requests: int, bulkSize: int): (r: (int, int, int))
    ensures r.0 >= 1 && r.1 >= 1 && r.2 >= 1
    ensures r.0 == (if threads > 0 then threads else 1)
    ensures r.1 == (if requests > 0 then requests else 10)
    ensures r.2 == (if bulkSize > 0 then bulkSize else 20000)
  {
    (OrDefault(threads, 1), OrDefault(requests, 10), OrDefault(bulkSize, 20000))
  }
}

=== FILE: go_int.dfy ===
/** The few pieces of Go integer semantics the model depends on: the range of
    `int64`, division that truncates toward zero, and the "replace a
    non-positive input by a default" idiom every benchmark `main` uses. */
module GoInt {

  const MinInt64: int := -0x8000_0000_0000_0000
  const MaxInt64: int := 0x7FFF_FFFF_FFFF_FFFF
  const TwoTo32: int := 0x1_0000_0000

  type Int64 = x: int | MinInt64 <= x <= MaxInt64

  /** Go's `/` on signed integers: the quotient is truncated toward zero
      (Dafny's own `/` is Euclidean). */
  function Quot(a: int, b: int): (q: int)
    requires b != 0
    ensures 0 <= a && 0 < b ==> q == a / b
    ensures b > 0 ==> q * b <= a < (q + 1) * b || (q - 1) * b < a <= q * b
  {
    if (a >= 0) == (b > 0) then
      (if a >= 0 then a / b else (-a) / (-b))
    else
      -((if a >= 0 then a else -a) / (if b > 0 then b else -b))
  }

  /** `if x <= 0 { x = d }` */
  function OrDefault(x: int, d: int): (r: int)
    requires d > 0
    ensures r > 0
    ensures x > 0 ==> r == x
    ensures x <= 0 ==> r == d
  {
    if x <= 0 then d else x
  }
}

=== FILE: harness.dfy ===
/** The fan-out of the search-after benchmark: `times` traversals, each
    folding its pages into shared accumulators under a lock, and the report
    `main` prints from them. The shared accumulators are modelled under the
    schedule in which the traversals run one after the other. */
module Harness {
  import opened Wrappers
  import opened GoInt
  import opened Visibility
  import opened Traversal

  /** The shared variables of `main` (lines 199-205). */
  datatype Globals = Globals(
    numOfPages: int,
    firstPageTook: int,
    totalTime: int,
    totalHits: int,
    avgTook: int,
    latency: int,
    avgLatency: int)

  /** The six figures `main` prints (lines 256-261). */
  datatype Report = Report(
    firstPageTook: int,
    pageTook: int,
    totalTook: int,
    pageLatency: int,
    totalLatency: int,
    avgHits: int)

  const Zero := Globals(0, 0, 0, 0, 0, 0, 0)

  /** The default inputs of lines 183-188. */
  function SearchAfterConfig(times: int, pageSize: int): (r: (int, int))
    ensures r.0 >= 1 && r.1 >= 1
    ensures times > 0 ==> r.0 == times
    ensures times <= 0 ==> r.0 == 1
    ensures pageSize > 0 ==> r.1 == pageSize
    ensures pageSize <= 0 ==> r.1 == 1000
  {
    (OrDefault(times, 1), OrDefault(pageSize, 1000))
  }

  // ---------------------------------------------------------------------------
  // As written

  /** What one traversal does to the shared variables when it runs alone:
      every page adds to `avgTook` (which still holds the previous traversal's
      quotient), and at the end both averages are recomputed from the global
      page count; `firstPageTook` is overwritten. */
  function AbsorbAsWritten(g: Globals, s: TraversalSummary): Globals
    requires g.numOfPages >= 0 && s.numOfPages >= 1
  {
    var pages := g.numOfPages + s.numOfPages;
    Globals(pages, s.firstPageTook, g.totalTime + s.totalTime, g.totalHits + s.totalHits,
            Quot(g.avgTook + s.totalTime, pages), g.latency + s.latency, Quot(g.latency + s.latency, pages))
  }

  predicate AllRan(ss: seq<TraversalSummary>) {
    forall i :: 0 <= i < |ss| ==> ss[i].numOfPages >= 1
  }

  function RunAsWritten(ss: seq<TraversalSummary>): (g: Globals)
    requires AllRan(ss)
    ensures g.numOfPages >= 0
  {
    if ss == [] then Zero else AbsorbAsWritten(RunAsWritten(ss[..|ss| - 1]), ss[|ss| - 1])
  }

  function ReportAsWritten(ss: seq<TraversalSummary>): Report
    requires |ss| >= 1 && AllRan(ss)
  {
    var g := RunAsWritten(ss);
    var times := |ss|;
    Report(Quot(g.firstPageTook, times), Quot(g.avgTook, times), Quot(g.totalTime, times),
           Quot(g.avgLatency, times), Quot(g.latency, times), Quot(g.totalHits, times))
  }

  // ---------------------------------------------------------------------------
  // Corrected: each figure is the mean over traversals of that traversal's own figure

  function Sum(ss: seq<TraversalSummary>, f: TraversalSummary -> int): int {
    if ss == [] then 0 else Sum(ss[..|ss| - 1], f) + f(ss[|ss| - 1])
  }

  function FirstTook(s: TraversalSummary): int { s.firstPageTook }
  function TotalTime(s: TraversalSummary): int { s.totalTime }
  function TotalLatency(s: TraversalSummary): int { s.latency }
  function TotalHits(s: TraversalSummary): int { s.totalHits }

  function PageTook(s: TraversalSummary): int {
    if s.numOfPages == 0 then 0 else Quot(s.totalTime, s.numOfPages)
  }

  function PageLatency(s: TraversalSummary): int {
    if s.numOfPages == 0 then 0 else Quot(s.latency, s.numOfPages)
  }

  /** The report as intended: per-traversal figures merged once per completed
      traversal, then averaged over the traversals. */
  function Merge(ss: seq<TraversalSummary>): Report
    requires |ss| >= 1
  {
    var times := |ss|;
    Report(
      Quot(Sum(ss, FirstTook), times),
      Quot(Sum(ss, PageTook), times),
      Quot(Sum(ss, TotalTime), times),
      Quot(Sum(ss, PageLatency), times),
      Quot(Sum(ss, TotalLatency), times),
      Quot(Sum(ss, TotalHits), times))
  }

  lemma {:induction false} SumConstant(ss: seq<TraversalSummary>, f: TraversalSummary -> int, v: int)
    requires forall i :: 0 <= i < |ss| ==> f(ss[i]) == v
    ensures Sum(ss, f) == |ss| * v
  {
    if ss != [] {
      SumConstant(ss[..|ss| - 1], f, v);
    }
  }

  lemma MeanOfCopies(n: int, v: int)
    requires n >= 1
    ensures Quot(n * v, n) == v
  {
    var m := if v >= 0 then v else -v;
    MultipleDivides(n, m);
    if v < 0 {
      assert n * v == -(n * m);
    }
  }

  lemma MultipleDivides(n: int, m: nat)
    requires n >= 1
    ensures n * m >= 0 && (n * m) / n == m
  {
    assert n * m == m * n + 0;
    AtLeastOneMultiple(n, m + 1);
    DivideExactly(n * m, m, n, 0);
  }

  /** When every traversal reports the same figures, the merged report shows
      exactly those figures. */
  lemma {:induction false} UniformTraversalsReportTheirValues(ss: seq<TraversalSummary>, s: TraversalSummary)
    requires |ss| >= 1
    requires forall i :: 0 <= i < |ss| ==> ss[i] == s
    ensures Merge(ss) == Report(s.firstPageTook, PageTook(s), s.totalTime, PageLatency(s), s.latency, s.totalHits)
  {
    var n := |ss|;
    SumConstant(ss, FirstTook, s.firstPageTook);
    SumConstant(ss, PageTook, PageTook(s));
    SumConstant(ss, TotalTime, s.totalTime);
    SumConstant(ss, PageLatency, PageLatency(s));
    SumConstant(ss, TotalLatency, s.latency);
    SumConstant(ss, TotalHits, s.totalHits);
    MeanOfCopies(n, s.firstPageTook);
    MeanOfCopies(n, PageTook(s));
    MeanOfCopies(n, s.totalTime);
    MeanOfCopies(n, PageLatency(s));
    MeanOfCopies(n, s.latency);
    MeanOfCopies(n, s.totalHits);
  }

  // ---------------------------------------------------------------------------
  // Where the two disagree: two identical-rate traversals, each averaging 10 ms
  // per page, first page 10 ms, 10 ms of latency per page.

  const Even1 := TraversalSummary(3, 10, 30, 25, 30)
  const Even2 := TraversalSummary(5, 10, 50, 25, 50)

  lemma RunEvenPair()
    ensures RunAsWritten([Even1, Even2]) == Globals(8, 10, 80, 50, 7, 80, 10)
  {
    var ss := [Even1, Even2];
    assert ss[..1] == [Even1];
    assert [Even1][..0] == [];
    assert RunAsWritten([Even1]) == Globals(3, 10, 30, 25, 10, 30, 10);
  }

  /** The printed per-page server time is 3 ms where both traversals averaged 10 ms. */
  lemma PageTookAsWrittenIsWrong()
    ensures ReportAsWritten([Even1, Even2]).pageTook == 3
    ensures Merge([Even1, Even2]).pageTook == 10
  {
    RunEvenPair();
    SumConstant([Even1, Even2], PageTook, 10);
  }

  /** The printed per-page latency is halved by a second division by `times`. */
  lemma PageLatencyAsWrittenIsWrong()
    ensures ReportAsWritten([Even1, Even2]).pageLatency == 5
    ensures Merge([Even1, Even2]).pageLatency == 10
  {
    RunEvenPair();
    SumConstant([Even1, Even2], PageLatency, 10);
  }

  /** The printed first-page time is the last traversal's, divided by `times`. */
  lemma FirstPageTookAsWrittenIsWrong()
    ensures ReportAsWritten([Even1, Even2]).firstPageTook == 5
    ensures Merge([Even1, Even2]).firstPageTook == 10
  {
    RunEvenPair();
    SumConstant([Even1, Even2], FirstTook, 10);
  }

  /** The sums the code keeps in shared variables are independent of the
      schedule quirks above: total time, hits and latency are plain sums of the
      traversals' own figures. */
  lemma {:induction false} RunAsWrittenSums(ss: seq<TraversalSummary>)
    requires AllRan(ss)
    ensures RunAsWritten(ss).totalTime == Sum(ss, TotalTime)
    ensures RunAsWritten(ss).totalHits == Sum(ss, TotalHits)
    ensures RunAsWritten(ss).latency == Sum(ss, TotalLatency)
  {
    if ss != [] {
      var init := ss[..|ss| - 1];
      assert forall i :: 0 <= i < |init| ==> init[i] == ss[i];
      RunAsWrittenSums(init);
    }
  }

  /** The three figures `main` prints correctly: average total server time,
      average total latency and average hits agree with the corrected report. */
  lemma AsWrittenTotalsAgree(ss: seq<TraversalSummary>)
    requires |ss| >= 1 && AllRan(ss)
    ensures ReportAsWritten(ss).totalTook == Merge(ss).totalTook
    ensures ReportAsWritten(ss).totalLatency == Merge(ss).totalLatency
    ensures ReportAsWritten(ss).avgHits == Merge(ss).avgHits
  {
    RunAsWrittenSums(ss);
  }

  // ---------------------------------------------------------------------------
  // The whole benchmark against one static store

  /** `main`: default the inputs, run `times` traversals (traversal `k` sees
      server times `took(k)` and latencies `latency(k)`) one after the other,
      and print the report from the shared variables as the code computes
      it. Every traversal sees every record, so the printed average hit count
      is the store's size. */
  method RunSearchAfter(store: seq<VisibilityRecord>, timesIn: int, pageSizeIn: int,
                        took: nat -> nat -> int, latency: nat -> nat -> int)
    returns (summaries: seq<TraversalSummary>, report: Report)
    requires Sorted(store)
    ensures |summaries| == if timesIn > 0 then timesIn else 1
    ensures AllRan(summaries)
    ensures forall k :: 0 <= k < |summaries| ==>
      Traversed(summaries[k], |store|, SearchAfterConfig(timesIn, pageSizeIn).1, took(k), latency(k))
    ensures report == ReportAsWritten(summaries)
    ensures report.avgHits == |store|
    ensures report.totalTook == Merge(summaries).totalTook
    ensures report.totalLatency == Merge(summaries).totalLatency
  {
    var config := SearchAfterConfig(timesIn, pageSizeIn);
    var times, pageSize := config.0, config.1;
    summaries := [];
    var k := 0;
    while k < times
      invariant 0 <= k <= times && |summaries| == k
      invariant forall j :: 0 <= j < k ==> Traversed(summaries[j], |store|, pageSize, took(j), latency(j))
    {
      var pages, summary := Traverse(store, pageSize, took(k), latency(k));
      assert Traversed(summary, |store|, pageSize, took(k), latency(k));
      TraversedSnoc(summaries, summary, |store|, pageSize, took, latency);
      summaries := summaries + [summary];
      k := k + 1;
    }
    report := ReportAsWritten(summaries);
    AsWrittenTotalsAgree(summaries);
    assert forall j :: 0 <= j < |summaries| ==> TotalHits(summaries[j]) == |store|;
    SumConstant(summaries, TotalHits, |store|);
    MeanOfCopies(times, |store|);
  }

  /** Two traversals of a store that fits on one page, with every fetch taking
      10 ms on the server and 10 ms on the wire: each traversal's first-page,
      per-page and per-page-latency figures are 10, yet `main` prints 5 for
      all three; only the totals come out right. */
  method ConstantTimesMisreported(store: seq<VisibilityRecord>) returns (report: Report)
    requires Sorted(store)
    ensures report.firstPageTook == 5 && report.pageTook == 5 && report.pageLatency == 5
    ensures report.totalTook == 10 && report.totalLatency == 10 && report.avgHits == |store|
  {
    var ten: nat -> nat -> int := (k: nat) => (i: nat) => 10;
    var summaries;
    summaries, report := RunSearchAfter(store, 2, |store| + 1, ten, ten);
    var s := TraversalSummary(1, 10, 10, |store|, 10);
    OnePage(|store|);
    assert SumOf(ten(0), 1) == 10 && SumOf(ten(1), 1) == 10;
    assert summaries == [s, s];
    TwoOnePageTraversals(|store|);
  }

  lemma OnePage(m: nat)
    ensures m / (m + 1) == 0
  {
  }

  /** The report `main` computes from two one-page traversals at 10 ms. */
  lemma TwoOnePageTraversals(m: nat)
    ensures var s := TraversalSummary(1, 10, 10, m, 10);
      ReportAsWritten([s, s]) == Report(5, 5, 10, 5, 10, m)
  {
    var s := TraversalSummary(1, 10, 10, m, 10);
    assert [s, s][..1] == [s] && [s][..0] == [];
    assert RunAsWritten([s]) == Globals(1, 10, 10, m, 10, 10, 10);
    assert RunAsWritten([s, s]) == Globals(2, 10, 20, 2 * m, 10, 20, 10);
  }

  /** What one traversal of an `m`-record store with page size `pageSize`
      leaves in its summary: `m/pageSize + 1` pages, all `m` hits, its first
      fetch's server time, and the sums of its fetches' server times and
      latencies. */
  ghost predicate Traversed(s: TraversalSummary, m: nat, pageSize: int, took: nat -> int, latency: nat -> int)
    requires pageSize >= 1
  {
    && s.numOfPages == m / pageSize + 1
    && s.totalHits == m
    && s.firstPageTook == took(0)
    && s.totalTime == SumOf(took, s.numOfPages)
    && s.latency == SumOf(latency, s.numOfPages)
  }

  lemma TraversedSnoc(ss: seq<TraversalSummary>, s: TraversalSummary, m: nat, pageSize: int,
                      took: nat -> nat -> int, latency: nat -> nat -> int)
    requires pageSize >= 1
    requires forall j :: 0 <= j < |ss| ==> Traversed(ss[j], m, pageSize, took(j), latency(j))
    requires Traversed(s, m, pageSize, took(|ss|), latency(|ss|))
    ensures forall j :: 0 <= j < |ss| + 1 ==> Traversed((ss + [s])[j], m, pageSize, took(j), latency(j))
  {
    forall j | 0 <= j < |ss| + 1
      ensures Traversed((ss + [s])[j], m, pageSize, took(j), latency(j))
    {
      if j < |ss| {
        assert (ss + [s])[j] == ss[j];
      }
    }
  }
}

=== FILE: key_index.dfy ===
/** The versioned bulk-update benchmark (`update_insight_bulk2.go`): the
    FNV-1a based choice of a state key for a document, and the ids of the
    documents and updates it writes. */
module KeyIndex {
  import opened Wrappers
  import opened GoInt
  import opened Decimal
  import opened Panics
  import opened DocIds

  newtype byte = x: int | 0 <= x < 256

  const FnvOffsetBasis: bv32 := 2166136261
  const FnvPrime: bv32 := 16777619

  /** 32-bit FNV-1a as `hash/fnv`'s `New32a` computes it: for each byte, xor
      it in and multiply by the prime, modulo 2^32. */
  function Fnv1a32(data: seq<byte>): bv32 {
    if data == [] then FnvOffsetBasis
    else (Fnv1a32(data[..|data| - 1]) ^ (data[|data| - 1] as bv32)) * FnvPrime
  }

  /** `uint32(x)` for a Go `int`: the low 32 bits. */
  function Uint32(x: int): (r: nat)
    ensures r < TwoTo32
    ensures 0 <= x < TwoTo32 ==> r == x
  {
    x % TwoTo32
  }

  /** `getKeyIndex2` as written: every operation is on `uint32`, so the sum
      `hash % n + uint32(offset)` wraps around at 2^32. A zero `n` panics. */
  function GetKeyIndex2(uid: seq<byte>, offset: int, numOfStates: int): (r: Result<nat, Panic>)
    ensures r.Failure? <==> Uint32(numOfStates) == 0
    ensures r.Success? ==> r.value < Uint32(numOfStates)
    ensures r.Success? && 0 < numOfStates < TwoTo32 ==> r.value < numOfStates
    ensures r.Success? && offset == 0 ==> r.value == (Fnv1a32(uid) as int) % Uint32(numOfStates)
  {
    var n := Uint32(numOfStates);
    if n == 0 then Failure(DivideByZero)
    else Success(WrappedIndex(Fnv1a32(uid) as int, Uint32(offset), n))
  }

  /** `(hash % n + off) % n` with the sum taken modulo 2^32. */
  function WrappedIndex(hash: nat, off: nat, n: nat): (r: nat)
    requires n >= 1 && n < TwoTo32 && off < TwoTo32
    ensures r < n
    ensures off == 0 ==> r == hash % n
  {
    var h := hash % n;
    var s := Uint32(h + off);
    assert off == 0 ==> s == h;
    ModOfModulus(hash, n);
    s % n
  }

  lemma ModOfModulus(x: nat, n: nat)
    requires n >= 1
    ensures (x % n) % n == x % n
  {
  }

  /** The index as intended: `(hash % n + offset) % n` without wrap-around. */
  function KeyIndexIntended(uid: seq<byte>, offset: nat, n: nat): (r: nat)
    requires n >= 1
    ensures r < n
  {
    ((Fnv1a32(uid) as int) % n + offset) % n
  }

  lemma ModOnce(x: int, n: int)
    requires n >= 1 && 0 <= x < 2 * n
    ensures x % n == if x < n then x else x - n
  {
    if x >= n {
      assert x == 1 * n + (x - n);
    }
  }

  /** For a fixed document, distinct offsets below `n` pick distinct keys. */
  lemma KeyIndexIntendedInjective(uid: seq<byte>, o1: nat, o2: nat, n: nat)
    requires n >= 1 && o1 < n && o2 < n && o1 != o2
    ensures KeyIndexIntended(uid, o1, n) != KeyIndexIntended(uid, o2, n)
  {
    var a := (Fnv1a32(uid) as int) % n;
    ModOnce(a + o1, n);
    ModOnce(a + o2, n);
  }

  /** While `n <= 2^31` the uint32 sum cannot wrap, and the code computes the
      intended index (the program uses `n == 5000`). */
  lemma NoWrapBelowHalfRange(uid: seq<byte>, offset: nat, numOfStates: nat)
    requires 1 <= numOfStates <= TwoTo32 / 2 && offset < numOfStates
    ensures GetKeyIndex2(uid, offset, numOfStates) == Success(KeyIndexIntended(uid, offset, numOfStates))
  {
  }

  /** With `n == 2^32 - 1` the wrap-around makes offsets 2128831034 and
      2128831035 of the empty uid (hash 2166136261) both pick key 0. */
  lemma WrapCollision()
    ensures GetKeyIndex2([], 2128831034, TwoTo32 - 1) == Success(0)
    ensures GetKeyIndex2([], 2128831035, TwoTo32 - 1) == Success(0)
    ensures KeyIndexIntended([], 2128831034, TwoTo32 - 1) == 0
    ensures KeyIndexIntended([], 2128831035, TwoTo32 - 1) == 1
  {
  }

  // ---------------------------------------------------------------------------
  // Ids

  /** `initData2`: the base id `u + "_" + reverse2(u) + "_"`. It starts with
      the uuid, ends with `_`, and what comes before that `_` reads the same
      backwards. */
  function BaseDocId(u: string): (b: string)
    ensures |b| == 2 * |u| + 2
    ensures b[..|u|] == u && b[|b| - 1] == '_'
    ensures Reverse(b[..|b| - 1]) == b[..|b| - 1]
  {
    var b := u + "_" + Reverse(u) + "_";
    assert b[..|b| - 1] == DocId(u);
    DocIdPalindrome(u);
    b
  }

  /** Distinct uuids give distinct base ids. */
  lemma BaseDocIdInjective(u1: string, u2: string)
    requires BaseDocId(u1) == BaseDocId(u2)
    ensures u1 == u2
  {
    var b := BaseDocId(u1);
    assert |u1| == |u2|;
    assert u1 == b[..|u1|] == u2;
  }

  /** The document an update goes to, `baseDocID2 + strconv.Itoa(docNo)`, and
      the update's own id, that document id + "_" + the state key. */
  function UpdateId(base: string, docNo: int, key: string): string {
    base + ShowInt(docNo) + "_" + key
  }

  predicate NoUnderscore(s: string) {
    forall i :: 0 <= i < |s| ==> s[i] != '_'
  }

  lemma SplitAtFirstUnderscore(x: string, k1: string, y: string, k2: string)
    requires NoUnderscore(x) && NoUnderscore(y)
    requires x + "_" + k1 == y + "_" + k2
    ensures x == y && k1 == k2
  {
    var l := x + "_" + k1;
    assert l[|x|] == '_' && (y + "_" + k2)[|y|] == '_';
    assert x == l[..|x|];
    assert k1 == l[|x| + 1..];
  }

  lemma ShowIntNoUnderscore(d: int)
    ensures NoUnderscore(ShowInt(d))
  {
    var t := ShowInt(d);
    if d < 0 {
      assert t == "-" + t[1..];
      assert AllDigits(t[1..]);
      forall i | 1 <= i < |t|
        ensures t[i] != '_'
      {
        assert t[i] == t[1..][i - 1];
      }
    }
  }

  lemma SamePrefixRest(base: string, t1: string, t2: string)
    requires base + t1 == base + t2
    ensures t1 == t2
  {
    assert t1 == (base + t1)[|base|..];
    assert t2 == (base + t2)[|base|..];
  }

  /** Under one base id, distinct (document number, key) pairs give distinct
      update ids, whatever characters the keys contain. */
  lemma UpdateIdInjective(base: string, d1: int, k1: string, d2: int, k2: string)
    requires UpdateId(base, d1, k1) == UpdateId(base, d2, k2)
    ensures d1 == d2 && k1 == k2
  {
    ShowIntNoUnderscore(d1);
    ShowIntNoUnderscore(d2);
    FieldsInjective(base, ShowInt(d1), k1, ShowInt(d2), k2);
    ShowIntInjective(d1, d2);
  }

  /** Two underscore-free fields after a common base, each followed by `_`
      and a tail: equal joins have equal fields and equal tails. */
  lemma FieldsInjective(base: string, x: string, k1: string, y: string, k2: string)
    requires NoUnderscore(x) && NoUnderscore(y)
    requires base + x + "_" + k1 == base + y + "_" + k2
    ensures x == y && k1 == k2
  {
    assert base + x + "_" + k1 == base + (x + "_" + k1);
    assert base + y + "_" + k2 == base + (y + "_" + k2);
    SamePrefixRest(base, x + "_" + k1, y + "_" + k2);
    SplitAtFirstUnderscore(x, k1, y, k2);
  }
}

=== FILE: page_token.dfy ===
/** The page-token codec of the search-after benchmark. A token is the sort
    key of the last hit of a page, serialized the way `json.Marshal`
    renders a `PageToken`: `{"CloseTime":<int64>,"RunID":"<string>"}`. */
module PageTokens {
  import opened Wrappers
  import opened GoInt
  import opened Decimal
  import opened Panics
  import opened Visibility

  const Head: string := "{\"CloseTime\":"
  const Middle: string := ",\"RunID\":\""
  const Tail: string := "\"}"

  /** Body of a JSON string literal: `"` and `\` are escaped with a backslash. */
  function Escape(s: string): (e: string)
    ensures |e| >= |s|
  {
    if s == [] then []
    else (if s[0] == '"' || s[0] == '\\' then ['\\', s[0]] else [s[0]]) + Escape(s[1..])
  }

  /** Reads a string body up to its closing quote; yields the decoded string and
      the number of characters consumed, closing quote included. */
  function Unquote(s: string): (r: Option<(string, nat)>)
    ensures r.Some? ==> 1 <= r.value.1 <= |s|
  {
    if s == [] then None
    else if s[0] == '"' then Some(([], 1))
    else if s[0] == '\\' then
      if |s| >= 2 && (s[1] == '"' || s[1] == '\\') then
        match Unquote(s[2..])
        case None => None
        case Some(p) => Some(([s[1]] + p.0, p.1 + 2))
      else None
    else
      match Unquote(s[1..])
      case None => None
      case Some(p) => Some(([s[0]] + p.0, p.1 + 1))
  }

  /** Reads a JSON integer (optional minus, digits without a superfluous leading
      zero); yields its value and the number of characters consumed. */
  function ParseNumber(s: string): (r: Option<(int, nat)>)
    ensures r.Some? ==> r.value.1 <= |s|
  {
    var neg := |s| > 0 && s[0] == '-';
    var start := if neg then 1 else 0;
    match ReadDigits(neg, s[start..])
    case None => None
    case Some(m) => Some((m.0, start + m.1))
  }

  /** The digits of a JSON integer after its optional minus sign; `-0` is
      not a JSON integer Go's encoder produces, and is refused. */
  function ReadDigits(neg: bool, s: string): (r: Option<(int, nat)>)
    ensures r.Some? ==> r.value.1 <= |s|
  {
    var k := SpanDigits(s);
    var digits := s[..k];
    if !Canonical(digits) || (neg && digits == "0") then None
    else
      var magnitude: int := ParseDigits(digits);
      Some((if neg then -magnitude else magnitude, k))
  }

  /** `serializePageToken`; never fails for a well-typed token. */
  function Serialize(t: PageToken): string {
    Head + ShowInt(t.closeTime) + Middle + Escape(t.runID) + Tail
  }

  predicate HasPrefix(s: string, p: string) {
    |p| <= |s| && s[..|p|] == p
  }

  /** `deserializePageToken`: malformed bytes give an error and no token. */
  function Deserialize(data: string): (r: Result<PageToken, Panic>)
    ensures r.Failure? ==> r.error == MalformedToken
    ensures r.Success? ==> HasPrefix(data, Head)
  {
    if !HasPrefix(data, Head) then Failure(MalformedToken) else DecodeFields(data[|Head|..])
  }

  function DecodeFields(rest: string): (r: Result<PageToken, Panic>)
    ensures r.Failure? ==> r.error == MalformedToken
  {
    match ParseNumber(rest)
    case None => Failure(MalformedToken)
    case Some(num) =>
      if !(MinInt64 <= num.0 <= MaxInt64) then Failure(MalformedToken)
      else DecodeRunID(num.0, rest[num.1..])
  }

  function DecodeRunID(closeTime: Int64, rest: string): (r: Result<PageToken, Panic>)
    ensures r.Failure? ==> r.error == MalformedToken
    ensures r.Success? ==> r.value.closeTime == closeTime
  {
    if !HasPrefix(rest, Middle) then Failure(MalformedToken)
    else
      var body := rest[|Middle|..];
      match Unquote(body)
      case None => Failure(MalformedToken)
      case Some(q) =>
        if body[q.1..] == "}" then Success(PageToken(closeTime, q.0))
        else Failure(MalformedToken)
  }

  lemma {:induction false} UnquoteEscape(s: string, t: string)
    ensures Unquote(Escape(s) + ['"'] + t) == Some((s, |Escape(s)| + 1))
  {
    if s == [] {
      assert Escape(s) + ['"'] + t == ['"'] + t;
    } else {
      UnquoteEscape(s[1..], t);
      UnquoteCons(s[0], s[1..], t);
      assert [s[0]] + s[1..] == s;
    }
  }

  /** The induction step of UnquoteEscape: one more character in front. */
  lemma UnquoteCons(c: char, rest: string, t: string)
    requires Unquote(Escape(rest) + ['"'] + t) == Some((rest, |Escape(rest)| + 1))
    ensures Unquote(Escape([c] + rest) + ['"'] + t) == Some(([c] + rest, |Escape([c] + rest)| + 1))
  {
    EscapeCons(c, rest);
    UnquoteStep(c, Escape(rest), t, rest);
  }

  /** One escaped or plain character in front of an escaped body. */
  lemma UnquoteStep(c: char, e: string, t: string, body: string)
    requires Unquote(e + ['"'] + t) == Some((body, |e| + 1))
    ensures var pre := if c == '"' || c == '\\' then ['\\', c] else [c];
      Unquote(pre + e + ['"'] + t) == Some(([c] + body, |pre + e| + 1))
  {
    var pre := if c == '"' || c == '\\' then ['\\', c] else [c];
    var after := e + ['"'] + t;
    assert pre + e + ['"'] + t == pre + after;
    assert (pre + after)[|pre|..] == after;
  }

  lemma {:induction false} UnquoteSound(u: string)
    requires Unquote(u).Some?
    ensures u[..Unquote(u).value.1] == Escape(Unquote(u).value.0) + ['"']
  {
    var r := Unquote(u).value;
    if u[0] == '"' {
      assert u[..1] == ['"'];
    } else {
      var k := if u[0] == '\\' then 2 else 1;
      var p := Unquote(u[k..]).value;
      UnquoteSound(u[k..]);
      var c := u[k - 1];
      assert r == ([c] + p.0, p.1 + k);
      var pre := if c == '"' || c == '\\' then ['\\', c] else [c];
      assert u[..k] == pre;
      EscapeCons(c, p.0);
      PrefixThen(u, k, p.1);
      assert u[..r.1] == pre + (Escape(p.0) + ['"']);
      assert Escape(r.0) + ['"'] == pre + Escape(p.0) + ['"'];
    }
  }

  lemma EscapeCons(c: char, s: string)
    ensures Escape([c] + s) == (if c == '"' || c == '\\' then ['\\', c] else [c]) + Escape(s)
  {
    assert ([c] + s)[1..] == s;
  }

  lemma PrefixThen(u: string, k: nat, n: nat)
    requires k + n <= |u|
    ensures u[..k + n] == u[..k] + u[k..][..n]
  {
  }

  lemma ParseNumberShow(v: int, t: string)
    requires t == [] || !IsDigit(t[0])
    ensures ParseNumber(ShowInt(v) + t) == Some((v, |ShowInt(v)|))
  {
    var neg := v < 0;
    var n := if neg then -v else v;
    var d := ShowNat(n);
    var shown := ShowInt(v);
    assert shown == (if neg then "-" + d else d);
    assert |shown| == (if neg then 1 else 0) + |d|;
    assert shown + t == (if neg then "-" + (d + t) else d + t);
    ParseNumberSigned(neg, d, t, shown + t);
    ParseShow(n);
    assert (if neg then 0 - ParseDigits(d) else ParseDigits(d)) == v;
  }

  /** A minus sign when `neg`, canonical digits, and a tail that does not
      start with a digit: the number is read up to the tail. */
  lemma ParseNumberSigned(neg: bool, d: string, t: string, s: string)
    requires Canonical(d) && (neg ==> d != "0")
    requires t == [] || !IsDigit(t[0])
    requires s == (if neg then "-" + (d + t) else d + t)
    ensures ParseNumber(s) ==
      Some((if neg then 0 - ParseDigits(d) else ParseDigits(d), (if neg then 1 else 0) + |d|))
  {
    ReadDigitsOf(neg, d, t);
    assert IsDigit((d + t)[0]);
    ParseNumberOf(neg, s, d + t);
  }

  /** The number read after an optional minus sign. */
  lemma ParseNumberOf(neg: bool, s: string, rest: string)
    requires s == (if neg then "-" + rest else rest)
    requires !neg ==> rest == [] || rest[0] != '-'
    requires ReadDigits(neg, rest).Some?
    ensures ParseNumber(s) ==
      Some((ReadDigits(neg, rest).value.0, (if neg then 1 else 0) + ReadDigits(neg, rest).value.1))
  {
    if neg {
      assert s[0] == '-' && s[1..] == rest;
    } else {
      assert s[0..] == rest;
    }
  }

  lemma ReadDigitsOf(neg: bool, d: string, t: string)
    requires Canonical(d) && (neg ==> d != "0")
    requires t == [] || !IsDigit(t[0])
    ensures ReadDigits(neg, d + t) == Some((if neg then 0 - ParseDigits(d) else ParseDigits(d), |d|))
  {
    DigitsThen(d, t);
    ReadDigitsSpanOf(neg, d, d + t);
  }

  lemma DigitsThen(d: string, t: string)
    requires AllDigits(d)
    requires t == [] || !IsDigit(t[0])
    ensures (d + t)[..SpanDigits(d + t)] == d
  {
    SpanOfDigitsThen(d, t);
    assert (d + t)[..|d|] == d;
  }

  lemma ReadDigitsSpanOf(neg: bool, d: string, s: string)
    requires Canonical(d) && (neg ==> d != "0")
    requires s[..SpanDigits(s)] == d
    ensures ReadDigits(neg, s) == Some((if neg then 0 - ParseDigits(d) else ParseDigits(d), |d|))
  {
    ReadDigitsSpan(neg, s);
  }

  lemma ReadDigitsSpan(neg: bool, s: string)
    requires Canonical(s[..SpanDigits(s)]) && !(neg && s[..SpanDigits(s)] == "0")
    ensures ReadDigits(neg, s) ==
      Some((if neg then 0 - ParseDigits(s[..SpanDigits(s)]) else ParseDigits(s[..SpanDigits(s)]), SpanDigits(s)))
  {
  }

  lemma ParseNumberSound(u: string)
    requires ParseNumber(u).Some?
    ensures u[..ParseNumber(u).value.1] == ShowInt(ParseNumber(u).value.0)
  {
    var neg := |u| > 0 && u[0] == '-';
    var start := if neg then 1 else 0;
    var k := SpanDigits(u[start..]);
    var digits := u[start..][..k];
    assert ReadDigits(neg, u[start..]).Some?;
    ShowParse(digits);
    if neg {
      assert u[..1 + k] == "-" + digits;
    } else {
      assert u[..k] == digits;
    }
  }

  lemma DecodeRunIDEscaped(closeTime: Int64, runID: string)
    ensures DecodeRunID(closeTime, Middle + Escape(runID) + Tail) == Success(PageToken(closeTime, runID))
  {
    var rest := Middle + Escape(runID) + Tail;
    var body := rest[|Middle|..];
    assert body == Escape(runID) + ['"'] + "}";
    UnquoteEscape(runID, "}");
    assert body[|Escape(runID)| + 1..] == "}";
  }

  lemma DecodeRunIDSound(closeTime: Int64, rest: string)
    requires DecodeRunID(closeTime, rest).Success?
    ensures rest == Middle + Escape(DecodeRunID(closeTime, rest).value.runID) + Tail
  {
    var body := rest[|Middle|..];
    var q := Unquote(body).value;
    assert DecodeRunID(closeTime, rest).value.runID == q.0 && body[q.1..] == "}";
    UnquoteSound(body);
    assert body == body[..q.1] + body[q.1..];
    assert rest == Middle + body;
  }

  lemma DecodeFieldsShown(t: PageToken)
    ensures DecodeFields(ShowInt(t.closeTime) + (Middle + Escape(t.runID) + Tail)) == Success(t)
  {
    var rest := ShowInt(t.closeTime) + (Middle + Escape(t.runID) + Tail);
    ParseNumberShow(t.closeTime, Middle + Escape(t.runID) + Tail);
    assert rest[|ShowInt(t.closeTime)|..] == Middle + Escape(t.runID) + Tail;
    DecodeRunIDEscaped(t.closeTime, t.runID);
  }

  lemma DecodeFieldsSound(rest: string)
    requires DecodeFields(rest).Success?
    ensures rest == ShowInt(DecodeFields(rest).value.closeTime) + Middle + Escape(DecodeFields(rest).value.runID) + Tail
  {
    var num := ParseNumber(rest).value;
    var t := DecodeFields(rest).value;
    assert DecodeRunID(num.0, rest[num.1..]) == Success(t);
    ParseNumberSound(rest);
    DecodeRunIDSound(num.0, rest[num.1..]);
    Rejoin(rest, num.1, ShowInt(t.closeTime), Middle, Escape(t.runID), Tail);
  }

  /** A string cut at `n` into a number and the three parts after it. */
  lemma Rejoin(rest: string, n: nat, a: string, b: string, c: string, d: string)
    requires n <= |rest| && rest[..n] == a && rest[n..] == b + c + d
    ensures rest == a + b + c + d
  {
    assert rest == rest[..n] + rest[n..];
  }

  /** Every token survives the trip through its serialized form. */
  lemma RoundTrip(t: PageToken)
    ensures Deserialize(Serialize(t)) == Success(t)
  {
    var data := Serialize(t);
    assert data == Head + (ShowInt(t.closeTime) + (Middle + Escape(t.runID) + Tail));
    assert data[|Head|..] == ShowInt(t.closeTime) + (Middle + Escape(t.runID) + Tail);
    DecodeFieldsShown(t);
  }

  /** Whatever the decoder accepts is the serialization of the token it returns. */
  lemma DeserializeSound(data: string)
    requires Deserialize(data).Success?
    ensures data == Serialize(Deserialize(data).value)
  {
    var rest := data[|Head|..];
    assert data == Head + rest;
    var t := DecodeFields(rest).value;
    DecodeFieldsSound(rest);
    Associate(Head, ShowInt(t.closeTime), Middle, Escape(t.runID), Tail);
  }

  lemma Associate(h: string, a: string, b: string, c: string, d: string)
    ensures h + (a + b + c + d) == h + a + b + c + d
  {
  }

  /** The decoder accepts exactly the encoder's outputs: bytes decode to a
      token if and only if they are that token's serialization. */
  lemma DeserializeExact(data: string, t: PageToken)
    ensures Deserialize(data) == Success(t) <==> data == Serialize(t)
  {
    if data == Serialize(t) {
      RoundTrip(t);
    }
    if Deserialize(data) == Success(t) {
      DeserializeSound(data);
    }
  }

  /** Bytes that are not the serialization of any token are rejected. */
  lemma MalformedRejected(data: string)
    requires forall t: PageToken :: Serialize(t) != data
    ensures Deserialize(data) == Failure(MalformedToken)
  {
    if Deserialize(data).Success? {
      DeserializeExact(data, Deserialize(data).value);
    }
  }
}

=== FILE: panics.dfy ===
/** The ways the modelled programs stop with a Go `panic` (or, for the
    scroll loop, with a logged error). Each becomes a `Failure` value. */
module Panics {

  datatype Panic =
    | MalformedToken    // `json.Unmarshal` of a page token failed
    | SearchFailed      // the backend call returned an error
    | BadSortValues     // a hit's sort values are missing, mistyped or out of int64 range
    | IndexOutOfRange   // `actualHits[pageSize-1]` with pageSize == 0
    | SliceOutOfRange   // `line[1:len(line)-1]` on a line shorter than two bytes
    | NilSource         // a multi-get document that was not found has no source
    | DivideByZero      // `% n` with n == 0
}

=== FILE: scroll.dfy ===
/** The scroll benchmark (`scroll_visibility.go`): each worker scrolls
    through the matching documents and reports the summed and maximal page
    times, and `main` merges the workers' numbers under a lock. */
module Scroll {
  import opened GoInt

  /** One answer of the scroll service: a page, the end of the results, or
      an error. */
  datatype ScrollResult = ScrollPage(tookInMillis: int, hits: nat) | ScrollEOF | ScrollError

  /** What `scroll_helper` returns. */
  datatype HelperResult = HelperResult(tookInMillis: int, totalHits: int, avgTook: int, maxTook: int)

  /** The pages read before the first answer that is not a page. Running out
      of scripted answers counts as the end of the results. */
  function Leading(results: seq<ScrollResult>): (pages: seq<ScrollResult>)
    ensures pages <= results
    ensures forall k :: 0 <= k < |pages| ==> pages[k].ScrollPage?
    ensures |pages| < |results| ==> !results[|pages|].ScrollPage?
  {
    if results == [] || !results[0].ScrollPage? then []
    else [results[0]] + Leading(results[1..])
  }

  function TookSum(pages: seq<ScrollResult>): int
    requires forall k :: 0 <= k < |pages| ==> pages[k].ScrollPage?
  {
    if pages == [] then 0 else TookSum(pages[..|pages| - 1]) + pages[|pages| - 1].tookInMillis
  }

  function HitsSum(pages: seq<ScrollResult>): nat
    requires forall k :: 0 <= k < |pages| ==> pages[k].ScrollPage?
  {
    if pages == [] then 0 else HitsSum(pages[..|pages| - 1]) + pages[|pages| - 1].hits
  }

  /** The largest page time, starting from 0: never below 0, never below a
      page's time, and either 0 or some page's time. */
  function MaxTook(pages: seq<ScrollResult>): (m: int)
    requires forall k :: 0 <= k < |pages| ==> pages[k].ScrollPage?
    ensures m >= 0
    ensures forall k :: 0 <= k < |pages| ==> pages[k].tookInMillis <= m
    ensures m == 0 || exists k :: 0 <= k < |pages| && pages[k].tookInMillis == m
  {
    if pages == [] then 0
    else
      var m := MaxTook(pages[..|pages| - 1]);
      var t := pages[|pages| - 1].tookInMillis;
      if t > m then t else m
  }

  /** `scroll_helper`, lines 46-66: sum the page times and hit counts and keep
      the largest page time. The loop counter also counts the final call that
      ended the scroll, so the average divides by one more than the number
      of pages. */
  method ScrollHelper(results: seq<ScrollResult>) returns (r: HelperResult)
    ensures var pages := Leading(results);
      && r.tookInMillis == TookSum(pages)
      && r.totalHits == HitsSum(pages)
      && r.avgTook == Quot(TookSum(pages), |pages| + 1)
      && r.maxTook == MaxTook(pages)
  {
    var tookInMillis, totalHits, maxTook := 0, 0, 0;
    var i := 0;
    var calls := 0;
    while true
      invariant 0 <= i <= |results| && calls == i
      invariant forall k :: 0 <= k < i ==> results[k].ScrollPage?
      invariant tookInMillis == TookSum(results[..i])
      invariant totalHits == HitsSum(results[..i])
      invariant maxTook == MaxTook(results[..i])
      decreases |results| - i
    {
      calls := calls + 1;
      if i == |results| || !results[i].ScrollPage? {
        break;
      }
      var page := results[i];
      assert results[..i + 1][..i] == results[..i];
      tookInMillis := tookInMillis + page.tookInMillis;
      totalHits := totalHits + page.hits;
      if page.tookInMillis > maxTook {
        maxTook := page.tookInMillis;
      }
      i := i + 1;
    }
    LeadingIs(results, i);
    r := HelperResult(tookInMillis, totalHits, Quot(tookInMillis, calls), maxTook);
  }

  lemma {:induction false} LeadingIs(results: seq<ScrollResult>, i: nat)
    requires i <= |results|
    requires forall k :: 0 <= k < i ==> results[k].ScrollPage?
    requires i == |results| || !results[i].ScrollPage?
    ensures Leading(results) == results[..i]
  {
    if i > 0 {
      LeadingIs(results[1..], i - 1);
      assert [results[0]] + results[1..][..i - 1] == results[..i];
    }
  }

  lemma {:induction false} TookSumAtMost(pages: seq<ScrollResult>, m: int)
    requires forall k :: 0 <= k < |pages| ==> pages[k].ScrollPage? && pages[k].tookInMillis <= m
    ensures TookSum(pages) <= |pages| * m
  {
    if pages != [] {
      TookSumAtMost(pages[..|pages| - 1], m);
    }
  }

  /** When no page reports a negative time, the reported average page time
      is at most the reported maximum. */
  lemma AverageAtMostMax(results: seq<ScrollResult>)
    requires forall k :: 0 <= k < |results| && results[k].ScrollPage? ==> results[k].tookInMillis >= 0
    ensures var pages := Leading(results);
      0 <= Quot(TookSum(pages), |pages| + 1) <= MaxTook(pages)
  {
    var pages := Leading(results);
    var m := MaxTook(pages);
    TookSumAtMost(pages, m);
    TookSumNonNegative(results, pages);
    QuotAtMost(TookSum(pages), |pages|, m);
  }

  /** A sum of `count` values none above `m`, divided by `count + 1`. */
  lemma QuotAtMost(sum: int, count: nat, m: int)
    requires 0 <= sum <= count * m && m >= 0
    ensures 0 <= Quot(sum, count + 1) <= m
  {
    var n := count + 1;
    assert count * m <= n * m;
    assert Quot(sum, n) == sum / n;
    DivAtMost(sum, n, m);
  }

  lemma DivAtMost(a: nat, n: nat, m: int)
    requires n >= 1 && a <= n * m
    ensures 0 <= a / n <= m
  {
  }

  lemma {:induction false} TookSumNonNegative(results: seq<ScrollResult>, pages: seq<ScrollResult>)
    requires forall k :: 0 <= k < |results| && results[k].ScrollPage? ==> results[k].tookInMillis >= 0
    requires pages <= results && forall k :: 0 <= k < |pages| ==> pages[k].ScrollPage?
    ensures TookSum(pages) >= 0
  {
    if pages != [] {
      TookSumNonNegative(results, pages[..|pages| - 1]);
      assert pages[|pages| - 1] == results[|pages| - 1];
    }
  }

  /** The lock-protected totals in `main`, lines 98-101. */
  datatype Totals = Totals(totalTime: int, totalHits: int, avgTook: int, maxTook: int)

  /** Lines 106-113: one worker's numbers added under the lock. */
  function Absorb(acc: Totals, w: HelperResult): Totals {
    Totals(acc.totalTime + w.tookInMillis, acc.totalHits + w.totalHits, acc.avgTook + w.avgTook,
           if w.maxTook > acc.maxTook then w.maxTook else acc.maxTook)
  }

  /** The totals after the workers finish in the order given. */
  function Merge(ws: seq<HelperResult>): (t: Totals)
    ensures t.maxTook >= 0 && forall k :: 0 <= k < |ws| ==> ws[k].maxTook <= t.maxTook
    ensures t.maxTook == 0 || exists k :: 0 <= k < |ws| && ws[k].maxTook == t.maxTook
  {
    if ws == [] then Totals(0, 0, 0, 0)
    else Absorb(Merge(ws[..|ws| - 1]), ws[|ws| - 1])
  }

  lemma AbsorbCommutes(acc: Totals, x: HelperResult, y: HelperResult)
    ensures Absorb(Absorb(acc, x), y) == Absorb(Absorb(acc, y), x)
  {
  }

  /** One more worker finishing: the totals absorb its numbers. */
  lemma MergeSnoc(ws: seq<HelperResult>, r: HelperResult)
    ensures Merge(ws + [r]) == Absorb(Merge(ws), r)
  {
    assert (ws + [r])[..|ws|] == ws;
  }

  /** Taking out element `i` before the last commutes with splitting off the last. */
  lemma RemoveBeforeLast<T>(ws: seq<T>, i: nat)
    requires i < |ws| - 1
    ensures ws[..|ws| - 1][i] == ws[i]
    ensures ws == ws[..|ws| - 1] + [ws[|ws| - 1]]
    ensures ws[..|ws| - 1][..i] + ws[..|ws| - 1][i + 1..] + [ws[|ws| - 1]] == ws[..i] + ws[i + 1..]
  {
  }

  /** A worker that finishes last can be absorbed before one taken out. */
  lemma AbsorbLast(front: seq<HelperResult>, x: HelperResult, rest: seq<HelperResult>, y: HelperResult)
    requires Merge(front) == Absorb(Merge(rest), x)
    ensures Merge(front + [y]) == Absorb(Merge(rest + [y]), x)
  {
    MergeSnoc(front, y);
    MergeSnoc(rest, y);
    AbsorbCommutes(Merge(rest), x, y);
  }

  lemma {:induction false} MergeRemove(ws: seq<HelperResult>, i: nat)
    requires i < |ws|
    ensures Merge(ws) == Absorb(Merge(ws[..i] + ws[i + 1..]), ws[i])
  {
    var last := |ws| - 1;
    if i == last {
      assert ws[..i] + ws[i + 1..] == ws[..last];
    } else {
      var front := ws[..last];
      var rest := front[..i] + front[i + 1..];
      MergeRemove(front, i);
      RemoveBeforeLast(ws, i);
      AbsorbLast(front, ws[i], rest, ws[last]);
    }
  }

  /** The workers run concurrently and finish in any order; whatever the
      order, the merged totals are the same. */
  lemma {:induction false} MergeOrderIrrelevant(a: seq<HelperResult>, b: seq<HelperResult>)
    requires multiset(a) == multiset(b)
    ensures Merge(a) == Merge(b)
    decreases |a|
  {
    if a == [] {
      assert |b| == |multiset(b)| == 0;
    } else {
      var x := a[|a| - 1];
      assert a == a[..|a| - 1] + [x];
      assert x in multiset(b);
      var i :| 0 <= i < |b| && b[i] == x;
      assert b == b[..i] + [b[i]] + b[i + 1..];
      var b' := b[..i] + b[i + 1..];
      assert multiset(b) == multiset(b[..i]) + multiset{x} + multiset(b[i + 1..]);
      assert multiset(a) == multiset(a[..|a| - 1]) + multiset{x};
      assert multiset(b') == multiset(b[..i]) + multiset(b[i + 1..]);
      assert multiset(b') == multiset(b) - multiset{x};
      assert multiset(a[..|a| - 1]) == multiset(a) - multiset{x};
      MergeOrderIrrelevant(a[..|a| - 1], b');
      MergeRemove(b, i);
    }
  }

  /** The four lines printed by `main`. */
  datatype ScrollReport = ScrollReport(avgPageTook: int, maxTook: int, avgTotalTime: int, avgHits: int)

  /** Lines 119-122: averages over the workers, with Go's truncating
      division. */
  function ReportOf(t: Totals, times: int): (r: ScrollReport)
    requires times >= 1
    ensures r.maxTook == t.maxTook
    ensures t.totalHits >= 0 ==> r.avgHits * times <= t.totalHits < (r.avgHits + 1) * times
  {
    ScrollReport(Quot(t.avgTook, times), t.maxTook, Quot(t.totalTime, times), Quot(t.totalHits, times))
  }

  /** What one worker reports about the scroll that answered `results`: the
      sums over the pages it read, the mean over its calls, and the slowest. */
  ghost predicate Summarizes(r: HelperResult, results: seq<ScrollResult>) {
    var pages := Leading(results);
    && r.tookInMillis == TookSum(pages)
    && r.totalHits == HitsSum(pages)
    && r.avgTook == Quot(TookSum(pages), |pages| + 1)
    && r.maxTook == MaxTook(pages)
  }

  /** Appending a worker that summarizes scroll `|ws|` keeps every worker
      summarizing its own scroll. */
  lemma SummarizesSnoc(ws: seq<HelperResult>, r: HelperResult, scrolls: nat -> seq<ScrollResult>)
    requires forall w :: 0 <= w < |ws| ==> Summarizes(ws[w], scrolls(w))
    requires Summarizes(r, scrolls(|ws|))
    ensures forall w :: 0 <= w < |ws| + 1 ==> Summarizes((ws + [r])[w], scrolls(w))
  {
    forall w | 0 <= w < |ws| + 1
      ensures Summarizes((ws + [r])[w], scrolls(w))
    {
      if w < |ws| {
        assert (ws + [r])[w] == ws[w];
      }
    }
  }

  /** No page any worker read took longer than the merged maximum. */
  lemma PagesWithinMax(workers: seq<HelperResult>, scrolls: nat -> seq<ScrollResult>)
    requires forall w :: 0 <= w < |workers| ==> Summarizes(workers[w], scrolls(w))
    ensures forall w, k :: 0 <= w < |workers| && 0 <= k < |Leading(scrolls(w))| ==>
      Leading(scrolls(w))[k].tookInMillis <= Merge(workers).maxTook
  {
    forall w, k | 0 <= w < |workers| && 0 <= k < |Leading(scrolls(w))|
      ensures Leading(scrolls(w))[k].tookInMillis <= Merge(workers).maxTook
    {
      assert Summarizes(workers[w], scrolls(w));
      assert workers[w].maxTook <= Merge(workers).maxTook;
    }
  }

  /** `main`: `times` workers (1 when not positive) each run a scroll whose
      answers `scrolls` gives, one after the other, and their numbers are
      merged and averaged. */
  method ScrollMain(timesIn: int, scrolls: nat -> seq<ScrollResult>)
    returns (workers: seq<HelperResult>, report: ScrollReport)
    ensures |workers| == OrDefault(timesIn, 1)
    ensures forall w :: 0 <= w < |workers| ==> Summarizes(workers[w], scrolls(w))
    ensures report == ReportOf(Merge(workers), |workers|)
    ensures forall w, k :: 0 <= w < |workers| && 0 <= k < |Leading(scrolls(w))| ==>
      Leading(scrolls(w))[k].tookInMillis <= report.maxTook
  {
    var times := OrDefault(timesIn, 1);
    workers := [];
    var totals := Totals(0, 0, 0, 0);
    var i := 0;
    while i < times
      invariant 0 <= i <= times && |workers| == i
      invariant totals == Merge(workers)
      invariant forall w :: 0 <= w < i ==> Summarizes(workers[w], scrolls(w))
    {
      var r := ScrollHelper(scrolls(i));
      assert Summarizes(r, scrolls(i));
      SummarizesSnoc(workers, r, scrolls);
      MergeSnoc(workers, r);
      workers := workers + [r];
      totals := Absorb(totals, r);
      i := i + 1;
    }
    report := ReportOf(totals, times);
    PagesWithinMax(workers, scrolls);
  }
}

=== FILE: search_after.dfy ===
/** One search-after page fetch (`searchOnePage`) against an ideal backend:
    the matching records held as a sequence in sort order. The part that
    decides whether a page carries a continuation token is modelled for
    arbitrary backend replies; the query itself for the ideal backend. */
module SearchAfter {
  import opened Wrappers
  import opened GoInt
  import opened Panics
  import opened Visibility
  import opened PageTokens

  /** A decoded sort value of a hit: a JSON number (as `json.Number`, here
      already read as an integer), a string, or anything else. */
  datatype SortValue = JsonNumber(n: int) | JsonString(s: string) | OtherValue

  datatype Hit = Hit(sort: seq<SortValue>, source: VisibilityRecord)

  /** The part of the backend's reply the benchmark reads. */
  datatype SearchResult = SearchResult(tookInMillis: int, totalHits: int, hits: seq<Hit>)

  datatype SearchAfterRequest = SearchAfterRequest(pageSize: int, nextPageToken: Option<string>)

  datatype SearchAfterResponse = SearchAfterResponse(
    tookInMillis: int,
    totalHits: int,
    actualHits: int,
    latency: int,
    records: seq<VisibilityRecord>,
    nextPageToken: Option<string>)

  /** `sorts[0].(json.Number).Int64()` and `sorts[1].(string)`; each step panics
      on a missing, mistyped or out-of-range value. */
  function TokenOfHit(h: Hit): (r: Result<PageToken, Panic>)
    ensures r.Success? <==>
      |h.sort| >= 2 && h.sort[0].JsonNumber? && MinInt64 <= h.sort[0].n <= MaxInt64 && h.sort[1].JsonString?
    ensures r.Failure? ==> r.error == BadSortValues
    ensures r.Success? ==> r.value.closeTime == h.sort[0].n && r.value.runID == h.sort[1].s
  {
    if |h.sort| < 1 || !h.sort[0].JsonNumber? || !(MinInt64 <= h.sort[0].n <= MaxInt64) then Failure(BadSortValues)
    else if |h.sort| < 2 || !h.sort[1].JsonString? then Failure(BadSortValues)
    else Success(PageToken(h.sort[0].n, h.sort[1].s))
  }

  /** The hit a token is built from, if any. A first page yields a token only
      when it came back full, built from hit `pageSize-1`; a continuation page
      yields one whenever it is non-empty, built from its last hit. */
  function TokenHitIndex(pageSize: int, firstPage: bool, count: nat): Option<int> {
    if firstPage then
      if count == pageSize then Some(pageSize - 1) else None
    else
      if count != 0 then Some(count - 1) else None
  }

  /** `hitsToRecords`: the decoded source of every hit, in hit order. */
  function HitsToRecords(hits: seq<Hit>): (rs: seq<VisibilityRecord>)
    ensures |rs| == |hits|
    ensures forall i :: 0 <= i < |hits| ==> rs[i] == hits[i].source
  {
    if hits == [] then [] else [hits[0].source] + HitsToRecords(hits[1..])
  }

  /** The continuation token of a page. A first page wants one exactly when
      it is full, a continuation page exactly when it is non-empty; the token
      is always the serialized sort key of the page's last hit. Wanting a
      token from an empty page (a first page of size 0) indexes out of range,
      and a last hit with unusable sort values panics. */
  function NextToken(pageSize: int, firstPage: bool, hits: seq<Hit>): (t: Result<Option<string>, Panic>)
    ensures t.Failure? <==>
      (if firstPage then |hits| == pageSize else |hits| != 0) &&
      (|hits| == 0 || TokenOfHit(hits[|hits| - 1]).Failure?)
    ensures t.Failure? ==> t.error == if |hits| == 0 then IndexOutOfRange else BadSortValues
    ensures t.Success? ==> (t.value.Some? <==> if firstPage then |hits| == pageSize else |hits| != 0)
    ensures t.Success? && t.value.Some? ==>
      && |hits| >= 1
      && TokenOfHit(hits[|hits| - 1]).Success?
      && t.value.value == Serialize(TokenOfHit(hits[|hits| - 1]).value)
  {
    match TokenHitIndex(pageSize, firstPage, |hits|)
    case None => Success(None)
    case Some(i) =>
      if !(0 <= i < |hits|) then Failure(IndexOutOfRange)
      else
        match TokenOfHit(hits[i])
        case Failure(e) => Failure(e)
        case Success(t) => Success(Some(Serialize(t)))
  }

  /** The response `searchOnePage` assembles from the backend's reply. */
  function BuildResponse(pageSize: int, firstPage: bool, result: SearchResult, latency: int)
    : (r: Result<SearchAfterResponse, Panic>)
    ensures r.Success? ==>
      && r.value.actualHits == |result.hits|
      && r.value.records == HitsToRecords(result.hits)
      && r.value.tookInMillis == result.tookInMillis
      && r.value.totalHits == result.totalHits
      && r.value.latency == latency
    // first page: a token exactly when the page is full
    ensures r.Success? && firstPage ==> (r.value.nextPageToken.Some? <==> |result.hits| == pageSize)
    // continuation: a token exactly when the page is non-empty
    ensures r.Success? && !firstPage ==> (r.value.nextPageToken.Some? <==> |result.hits| != 0)
    // the token is the sort key of the page's last hit
    ensures r.Success? && r.value.nextPageToken.Some? ==>
      && |result.hits| >= 1
      && TokenOfHit(result.hits[|result.hits| - 1]).Success?
      && r.value.nextPageToken.value == Serialize(TokenOfHit(result.hits[|result.hits| - 1]).value)
    // a full page always carries a token, so the caller's loop never restarts from the first page
    ensures r.Success? && pageSize >= 1 && r.value.actualHits == pageSize ==> r.value.nextPageToken.Some?
    // the only panics: a token is wanted and the page is empty, or its last hit's sort values are unusable
    ensures r.Failure? <==>
      (if firstPage then |result.hits| == pageSize else |result.hits| != 0) &&
      (|result.hits| == 0 || TokenOfHit(result.hits[|result.hits| - 1]).Failure?)
    ensures r.Failure? ==> r.error == if |result.hits| == 0 then IndexOutOfRange else BadSortValues
  {
    var hits := result.hits;
    var token := NextToken(pageSize, firstPage, hits);
    if token.Failure? then Failure(token.error)
    else Success(SearchAfterResponse(
      result.tookInMillis, result.totalHits, |hits|, latency, HitsToRecords(hits), token.value))
  }

  /** A full first page carries the key of its last hit. */
  lemma FullFirstPageToken(pageSize: int, hits: seq<Hit>, key: PageToken)
    requires |hits| == pageSize >= 1 && TokenOfHit(hits[pageSize - 1]) == Success(key)
    ensures NextToken(pageSize, true, hits) == Success(Some(Serialize(key)))
  {
  }

  /** A short first page carries no token. */
  lemma ShortFirstPageToken(pageSize: int, hits: seq<Hit>)
    requires |hits| != pageSize
    ensures NextToken(pageSize, true, hits) == Success(None)
  {
  }

  /** A non-empty continuation page carries the key of its last hit. */
  lemma NonEmptyNextPageToken(pageSize: int, hits: seq<Hit>, key: PageToken)
    requires |hits| >= 1 && TokenOfHit(hits[|hits| - 1]) == Success(key)
    ensures NextToken(pageSize, false, hits) == Success(Some(Serialize(key)))
  {
  }

  /** Once the page's token is known, the response is the page's records with that token. */
  lemma BuildResponseWith(pageSize: int, firstPage: bool, result: SearchResult, latency: int, token: Option<string>)
    requires NextToken(pageSize, firstPage, result.hits) == Success(token)
    ensures BuildResponse(pageSize, firstPage, result, latency) ==
      Success(SearchAfterResponse(result.tookInMillis, result.totalHits, |result.hits|, latency,
        HitsToRecords(result.hits), token))
  {
  }

  /** A hit whose first sort value is not a `json.Number` (the client decodes
      numbers as float64 unless told otherwise) makes a full first page panic. */
  lemma NonNumberSortValuePanics(pageSize: int, result: SearchResult, latency: int)
    requires pageSize >= 1 && |result.hits| == pageSize
    requires |result.hits[pageSize - 1].sort| >= 1 && result.hits[pageSize - 1].sort[0].OtherValue?
    ensures BuildResponse(pageSize, true, result, latency) == Failure(BadSortValues)
  {
    assert TokenOfHit(result.hits[|result.hits| - 1]).Failure?;
  }

  // ---------------------------------------------------------------------------
  // The ideal backend

  /** The records strictly after cursor `c` in sort order, in sort order. */
  function After(store: seq<VisibilityRecord>, c: PageToken): (r: seq<VisibilityRecord>)
    ensures |r| <= |store|
  {
    if store == [] then []
    else (if Precedes(c, KeyOf(store[0])) then [store[0]] else []) + After(store[1..], c)
  }

  function Take<T>(s: seq<T>, n: nat): (r: seq<T>)
    ensures |r| == if n < |s| then n else |s|
  {
    if n < |s| then s[..n] else s
  }

  /** The hit the backend returns for a record: its source and its sort values. */
  function HitOf(r: VisibilityRecord): Hit {
    Hit([JsonNumber(r.closeTime), JsonString(r.runID)], r)
  }

  /** The backend's hit for a record yields that record's key as token. */
  lemma TokenOfHitOf(r: VisibilityRecord)
    ensures TokenOfHit(HitOf(r)) == Success(KeyOf(r))
  {
  }

  function HitsOf(rs: seq<VisibilityRecord>): (hs: seq<Hit>)
    ensures |hs| == |rs|
    ensures forall i :: 0 <= i < |rs| ==> hs[i] == HitOf(rs[i])
  {
    if rs == [] then [] else [HitOf(rs[0])] + HitsOf(rs[1..])
  }

  /** The query of lines 82-84 (plus `SearchAfter` on a continuation): at most
      `size` records, starting right after the cursor. A negative size is
      rejected by the backend. `took` is the server time the reply reports. */
  function Search(store: seq<VisibilityRecord>, size: int, cursor: Option<PageToken>, took: int)
    : (r: Result<SearchResult, Panic>)
    ensures r.Success? <==> size >= 0
  {
    if size < 0 then Failure(SearchFailed)
    else
      var matching := if cursor.None? then store else After(store, cursor.value);
      Success(SearchResult(took, |store|, HitsOf(Take(matching, size))))
  }

  /** `searchOnePage`: no token means the first page; a token is decoded
      (panicking when malformed) and the search resumes after its key. */
  function SearchOnePage(store: seq<VisibilityRecord>, request: SearchAfterRequest, took: int, latency: int)
    : (r: Result<SearchAfterResponse, Panic>)
    ensures request.nextPageToken.Some? && Deserialize(request.nextPageToken.value).Failure? ==>
      r == Failure(MalformedToken)
    ensures request.pageSize < 0 ==> r.Failure?
    ensures request.pageSize >= 1 && request.nextPageToken.None? ==>
      r.Success? && r.value.records == Take(store, request.pageSize)
  {
    match request.nextPageToken
    case None =>
      var result :- Search(store, request.pageSize, None, took);
      BuildResponse(request.pageSize, true, result, latency)
    case Some(bytes) =>
      var token :- Deserialize(bytes);
      var result :- Search(store, request.pageSize, Some(token), took);
      BuildResponse(request.pageSize, false, result, latency)
  }

  lemma HitsOfRecords(rs: seq<VisibilityRecord>)
    ensures HitsToRecords(HitsOf(rs)) == rs
  {
  }

  lemma {:induction false} AfterAll(store: seq<VisibilityRecord>, c: PageToken)
    requires forall i :: 0 <= i < |store| ==> Precedes(c, KeyOf(store[i]))
    ensures After(store, c) == store
  {
    if store != [] {
      AfterAll(store[1..], c);
      assert [store[0]] + store[1..] == store;
    }
  }

  /** On a sorted store, searching after the key of record `k` resumes exactly
      at record `k+1`: nothing is skipped and nothing repeated. */
  lemma {:induction false} AfterKey(store: seq<VisibilityRecord>, k: nat)
    requires Sorted(store)
    requires k < |store|
    ensures After(store, KeyOf(store[k])) == store[k + 1..]
  {
    var c := KeyOf(store[k]);
    PrecedesStrictTotal(c, KeyOf(store[0]));
    assert Sorted(store[1..]) by {
      forall i, j | 0 <= i < j < |store[1..]|
        ensures Precedes(KeyOf(store[1..][i]), KeyOf(store[1..][j]))
      {
        assert store[1..][i] == store[i + 1] && store[1..][j] == store[j + 1];
      }
    }
    if k == 0 {
      forall i | 0 <= i < |store[1..]|
        ensures Precedes(c, KeyOf(store[1..][i]))
      {
        assert store[1..][i] == store[i + 1];
      }
      AfterAll(store[1..], c);
    } else {
      assert Precedes(KeyOf(store[0]), c);
      AfterKey(store[1..], k - 1);
      assert store[1..][k - 1] == store[k];
      assert store[1..][k..] == store[k + 1..];
    }
  }
}

=== FILE: traversal.dfy ===
/** One traversal of the search-after benchmark (the body of each goroutine in
    `main`): fetch the first page, then keep fetching with the previous
    response's token while the last page came back full. Server and wall-clock
    times of fetch `i` are the inputs `took(i)` and `latency(i)`. */
module Traversal {
  import opened Wrappers
  import opened Visibility
  import opened PageTokens
  import opened SearchAfter

  /** The accumulators one traversal adds to: pages fetched, the first page's
      server time, total server time, total hits and total latency. */
  datatype TraversalSummary = TraversalSummary(
    numOfPages: nat,
    firstPageTook: int,
    totalTime: int,
    totalHits: int,
    latency: int)

  /** All records of a sequence of responses, in fetch order. */
  function Records(pages: seq<SearchAfterResponse>): seq<VisibilityRecord> {
    if pages == [] then [] else Records(pages[..|pages| - 1]) + pages[|pages| - 1].records
  }

  function SumTook(pages: seq<SearchAfterResponse>): int {
    if pages == [] then 0 else SumTook(pages[..|pages| - 1]) + pages[|pages| - 1].tookInMillis
  }

  function SumHits(pages: seq<SearchAfterResponse>): int {
    if pages == [] then 0 else SumHits(pages[..|pages| - 1]) + pages[|pages| - 1].actualHits
  }

  function SumLatency(pages: seq<SearchAfterResponse>): int {
    if pages == [] then 0 else SumLatency(pages[..|pages| - 1]) + pages[|pages| - 1].latency
  }

  /** `f(0) + ... + f(n-1)`: the sum of the first `n` inputs of a fetch-indexed input. */
  function SumOf(f: nat -> int, n: nat): int {
    if n == 0 then 0 else SumOf(f, n - 1) + f(n - 1)
  }

  /** The summary the accumulators should hold after fetching `pages`. */
  function Summarize(pages: seq<SearchAfterResponse>): TraversalSummary
    requires |pages| >= 1
  {
    TraversalSummary(|pages|, pages[0].tookInMillis, SumTook(pages), SumHits(pages), SumLatency(pages))
  }

  lemma FirstPage(store: seq<VisibilityRecord>, pageSize: int, took: int, latency: int)
    requires pageSize >= 1
    ensures var r := SearchOnePage(store, SearchAfterRequest(pageSize, None), took, latency);
      && r.Success?
      && r.value.records == Take(store, pageSize)
      && r.value.actualHits == |r.value.records|
      && r.value.tookInMillis == took
      && r.value.latency == latency
      && r.value.nextPageToken ==
           (if |store| >= pageSize then Some(Serialize(KeyOf(store[pageSize - 1]))) else None)
  {
    var rs := Take(store, pageSize);
    StartFirst(store, pageSize, took, latency);
    FirstOfRecords(pageSize, rs, took, |store|, latency);
    if |store| >= pageSize {
      assert rs[|rs| - 1] == store[pageSize - 1];
    }
  }

  /** A first-page request searches from the start of the index. */
  lemma StartFirst(store: seq<VisibilityRecord>, pageSize: int, took: int, latency: int)
    requires pageSize >= 0
    ensures SearchOnePage(store, SearchAfterRequest(pageSize, None), took, latency) ==
      BuildResponse(pageSize, true, SearchResult(took, |store|, HitsOf(Take(store, pageSize))), latency)
  {
  }

  /** The response built for a first page whose hits come from records `rs`. */
  lemma FirstOfRecords(pageSize: int, rs: seq<VisibilityRecord>, took: int, total: int, latency: int)
    requires pageSize >= 1
    ensures BuildResponse(pageSize, true, SearchResult(took, total, HitsOf(rs)), latency) ==
      Success(SearchAfterResponse(took, total, |rs|, latency, rs,
        if |rs| == pageSize then Some(Serialize(KeyOf(rs[|rs| - 1]))) else None))
  {
    if |rs| == pageSize {
      FullFirstOfRecords(pageSize, rs, took, total, latency);
    } else {
      ShortFirstOfRecords(pageSize, rs, took, total, latency);
    }
  }

  lemma FullFirstOfRecords(pageSize: int, rs: seq<VisibilityRecord>, took: int, total: int, latency: int)
    requires |rs| == pageSize >= 1
    ensures BuildResponse(pageSize, true, SearchResult(took, total, HitsOf(rs)), latency) ==
      Success(SearchAfterResponse(took, total, |rs|, latency, rs, Some(Serialize(KeyOf(rs[|rs| - 1])))))
  {
    var hits := HitsOf(rs);
    var last := rs[|rs| - 1];
    assert hits[pageSize - 1] == HitOf(last);
    TokenOfHitOf(last);
    FullFirstPageToken(pageSize, hits, KeyOf(last));
    HitsOfRecords(rs);
    BuildResponseWith(pageSize, true, SearchResult(took, total, hits), latency, Some(Serialize(KeyOf(last))));
  }

  lemma ShortFirstOfRecords(pageSize: int, rs: seq<VisibilityRecord>, took: int, total: int, latency: int)
    requires |rs| != pageSize
    ensures BuildResponse(pageSize, true, SearchResult(took, total, HitsOf(rs)), latency) ==
      Success(SearchAfterResponse(took, total, |rs|, latency, rs, None))
  {
    var hits := HitsOf(rs);
    ShortFirstPageToken(pageSize, hits);
    HitsOfRecords(rs);
    BuildResponseWith(pageSize, true, SearchResult(took, total, hits), latency, None);
  }

  /** A continuation request carrying the key of record `k` returns the next
      records after `k`, and its token (if any) is the key of the last of them. */
  lemma NextPage(store: seq<VisibilityRecord>, pageSize: int, k: nat, took: int, latency: int)
    requires Sorted(store)
    requires pageSize >= 1
    requires k < |store|
    ensures var r := SearchOnePage(store, SearchAfterRequest(pageSize, Some(Serialize(KeyOf(store[k])))), took, latency);
      && r.Success?
      && r.value.records == Take(store[k + 1..], pageSize)
      && r.value.actualHits == |r.value.records|
      && r.value.tookInMillis == took
      && r.value.latency == latency
      && r.value.nextPageToken ==
           (if |r.value.records| == 0 then None
            else Some(Serialize(KeyOf(store[k + |r.value.records|]))))
  {
    var key := KeyOf(store[k]);
    ResumeAfter(store, pageSize, key, took, latency);
    AfterKey(store, k);
    var rest := Take(store[k + 1..], pageSize);
    ContinuationOfRecords(pageSize, rest, took, |store|, latency);
    if rest != [] {
      TakeAfterLast(store, k, pageSize);
    }
  }

  /** The last of the records taken after position `k` sits at `k + count`. */
  lemma TakeAfterLast<T>(s: seq<T>, k: nat, n: nat)
    requires k < |s| && Take(s[k + 1..], n) != []
    ensures Take(s[k + 1..], n)[|Take(s[k + 1..], n)| - 1] == s[k + |Take(s[k + 1..], n)|]
  {
  }

  /** A request carrying a well-formed token resumes after the token's key. */
  lemma ResumeAfter(store: seq<VisibilityRecord>, pageSize: int, key: PageToken, took: int, latency: int)
    requires pageSize >= 0
    ensures SearchOnePage(store, SearchAfterRequest(pageSize, Some(Serialize(key))), took, latency) ==
      BuildResponse(pageSize, false, SearchResult(took, |store|, HitsOf(Take(After(store, key), pageSize))), latency)
  {
    RoundTrip(key);
  }

  /** `searchOnePage` on a first-page request; it cannot panic. */
  method FetchFirst(store: seq<VisibilityRecord>, request: SearchAfterRequest, took: int, latency: int)
    returns (resp: SearchAfterResponse)
    requires request.pageSize >= 1 && request.nextPageToken.None?
    ensures resp.records == Take(store, request.pageSize)
    ensures resp.actualHits == |resp.records|
    ensures resp.tookInMillis == took && resp.latency == latency
    ensures resp.nextPageToken ==
      (if |store| >= request.pageSize then Some(Serialize(KeyOf(store[request.pageSize - 1]))) else None)
  {
    FirstPage(store, request.pageSize, took, latency);
    resp := SearchOnePage(store, request, took, latency).value;
  }

  /** `searchOnePage` on a continuation request carrying the key of record `k`;
      on a sorted store it cannot panic. */
  method FetchNext(store: seq<VisibilityRecord>, request: SearchAfterRequest, k: nat, took: int, latency: int)
    returns (resp: SearchAfterResponse)
    requires Sorted(store)
    requires request.pageSize >= 1
    requires k < |store|
    requires request.nextPageToken == Some(Serialize(KeyOf(store[k])))
    ensures resp.records == Take(store[k + 1..], request.pageSize)
    ensures resp.actualHits == |resp.records|
    ensures resp.tookInMillis == took && resp.latency == latency
    ensures resp.nextPageToken ==
      (if |resp.records| == 0 then None else Some(Serialize(KeyOf(store[k + |resp.records|]))))
  {
    NextPage(store, request.pageSize, k, took, latency);
    resp := SearchOnePage(store, request, took, latency).value;
  }

  /** The response built for a continuation page whose hits come from records `rs`. */
  lemma ContinuationOfRecords(pageSize: int, rs: seq<VisibilityRecord>, took: int, total: int, latency: int)
    ensures BuildResponse(pageSize, false, SearchResult(took, total, HitsOf(rs)), latency) ==
      Success(SearchAfterResponse(took, total, |rs|, latency, rs,
        if rs == [] then None else Some(Serialize(KeyOf(rs[|rs| - 1])))))
  {
    if rs == [] {
      assert NextToken(pageSize, false, HitsOf(rs)) == Success(None);
      BuildResponseWith(pageSize, false, SearchResult(took, total, HitsOf(rs)), latency, None);
    } else {
      NonEmptyContinuation(pageSize, rs, took, total, latency);
    }
  }

  lemma NonEmptyContinuation(pageSize: int, rs: seq<VisibilityRecord>, took: int, total: int, latency: int)
    requires rs != []
    ensures BuildResponse(pageSize, false, SearchResult(took, total, HitsOf(rs)), latency) ==
      Success(SearchAfterResponse(took, total, |rs|, latency, rs, Some(Serialize(KeyOf(rs[|rs| - 1])))))
  {
    var hits := HitsOf(rs);
    var last := rs[|rs| - 1];
    assert hits[|hits| - 1] == HitOf(last);
    TokenOfHitOf(last);
    NonEmptyNextPageToken(pageSize, hits, KeyOf(last));
    HitsOfRecords(rs);
    BuildResponseWith(pageSize, false, SearchResult(took, total, hits), latency, Some(Serialize(KeyOf(last))));
  }

  /** Appending one response extends every accumulator by that response. */
  lemma AppendPage(pages: seq<SearchAfterResponse>, r: SearchAfterResponse)
    ensures Records(pages + [r]) == Records(pages) + r.records
    ensures SumTook(pages + [r]) == SumTook(pages) + r.tookInMillis
    ensures SumHits(pages + [r]) == SumHits(pages) + r.actualHits
    ensures SumLatency(pages + [r]) == SumLatency(pages) + r.latency
  {
    assert (pages + [r])[..|pages|] == pages;
  }

  lemma PrefixThenTake<T>(s: seq<T>, t: nat, n: nat)
    requires t <= |s|
    ensures s[..t] + Take(s[t..], n) == s[..t + |Take(s[t..], n)|]
  {
  }

  lemma NextMultiple(q: int, p: int)
    ensures q * p + p == (q + 1) * p
  {
  }

  lemma AtLeastOneMultiple(x: int, p: int)
    requires x >= 1 && p >= 1
    ensures x * p >= p
  {
    assert x * p == (x - 1) * p + p;
  }

  lemma DivideExactly(m: int, q: int, p: int, h: int)
    requires p >= 1 && 0 <= h < p && m == q * p + h
    ensures m / p == q
  {
    var d := m / p;
    var r := m % p;
    assert m == d * p + r;
    assert (d - q) * p == h - r;
    if d > q {
      AtLeastOneMultiple(d - q, p);
    } else if d < q {
      AtLeastOneMultiple(q - d, p);
    }
  }

  /** What holds of the responses fetched so far by a traversal with page
      size `pageSize`: each came back for its own fetch number, every page but
      the last was full, together they hold a prefix of the store, and the last
      one carries the key of the last record seen exactly when it was full. */
  ghost predicate Fetched(store: seq<VisibilityRecord>, pageSize: int, pages: seq<SearchAfterResponse>,
                          took: nat -> int, latency: nat -> int)
  {
    Shaped(pageSize, pages, took, latency) && Covers(store, pageSize, pages)
  }

  /** The page-by-page part of `Fetched`. */
  ghost predicate Shaped(pageSize: int, pages: seq<SearchAfterResponse>, took: nat -> int, latency: nat -> int) {
    && |pages| >= 1
    && (forall i :: 0 <= i < |pages| - 1 ==> pages[i].actualHits == pageSize)
    && (forall i :: 0 <= i < |pages| ==>
          pages[i].tookInMillis == took(i) && pages[i].latency == latency(i)
          && pages[i].actualHits == |pages[i].records| <= pageSize)
  }

  /** The part of `Fetched` about the records seen. */
  ghost predicate Covers(store: seq<VisibilityRecord>, pageSize: int, pages: seq<SearchAfterResponse>) {
    var seen := Records(pages);
    && |pages| >= 1
    && |seen| <= |store| && seen == store[..|seen|]
    && |seen| == (|pages| - 1) * pageSize + pages[|pages| - 1].actualHits
    && (pages[|pages| - 1].actualHits < pageSize ==> |seen| == |store|)
    && (pages[|pages| - 1].actualHits == pageSize ==>
          |seen| >= 1 && pages[|pages| - 1].nextPageToken == Some(Serialize(KeyOf(store[|seen| - 1]))))
  }

  /** One turn of the `for resp.ActualHits == int64(pageSize)` loop: resend the
      request with the previous response's token. */
  method Step(store: seq<VisibilityRecord>, request: SearchAfterRequest, pages: seq<SearchAfterResponse>,
              took: nat -> int, latency: nat -> int)
    returns (next: SearchAfterRequest, resp: SearchAfterResponse)
    requires Sorted(store) && request.pageSize >= 1
    requires Fetched(store, request.pageSize, pages, took, latency)
    requires pages[|pages| - 1].actualHits == request.pageSize
    ensures next.pageSize == request.pageSize
    ensures Fetched(store, request.pageSize, pages + [resp], took, latency)
    ensures |Records(pages + [resp])| > |Records(pages)|
            || (|Records(pages + [resp])| == |store| && resp.actualHits < request.pageSize)
  {
    var pageSize := request.pageSize;
    var seen := |Records(pages)|;
    TokenOfLast(store, pageSize, pages);
    next := request.(nextPageToken := pages[|pages| - 1].nextPageToken);
    resp := FetchNext(store, next, seen - 1, took(|pages|), latency(|pages|));
    Extended(store, pageSize, pages, resp, took, latency);
  }

  /** A full last page carries the key of the last record seen. */
  lemma TokenOfLast(store: seq<VisibilityRecord>, pageSize: int, pages: seq<SearchAfterResponse>)
    requires Covers(store, pageSize, pages)
    requires pages[|pages| - 1].actualHits == pageSize
    ensures 1 <= |Records(pages)| <= |store|
    ensures pages[|pages| - 1].nextPageToken == Some(Serialize(KeyOf(store[|Records(pages)| - 1])))
  {
  }

  lemma Extended(store: seq<VisibilityRecord>, pageSize: int, pages: seq<SearchAfterResponse>,
                 resp: SearchAfterResponse, took: nat -> int, latency: nat -> int)
    requires pageSize >= 1
    requires Fetched(store, pageSize, pages, took, latency)
    requires pages[|pages| - 1].actualHits == pageSize
    requires resp.records == Take(store[|Records(pages)|..], pageSize)
    requires resp.actualHits == |resp.records|
    requires resp.tookInMillis == took(|pages|) && resp.latency == latency(|pages|)
    requires resp.nextPageToken ==
      (if |resp.records| == 0 then None else Some(Serialize(KeyOf(store[|Records(pages)| - 1 + |resp.records|]))))
    ensures Fetched(store, pageSize, pages + [resp], took, latency)
    ensures |Records(pages + [resp])| > |Records(pages)|
            || (|Records(pages + [resp])| == |store| && resp.actualHits < pageSize)
  {
    ExtendedShape(pageSize, pages, resp, took, latency);
    ExtendedCover(store, pageSize, pages, resp);
  }

  lemma ExtendedShape(pageSize: int, pages: seq<SearchAfterResponse>, resp: SearchAfterResponse,
                      took: nat -> int, latency: nat -> int)
    requires Shaped(pageSize, pages, took, latency)
    requires pages[|pages| - 1].actualHits == pageSize
    requires resp.actualHits == |resp.records| <= pageSize
    requires resp.tookInMillis == took(|pages|) && resp.latency == latency(|pages|)
    ensures Shaped(pageSize, pages + [resp], took, latency)
  {
    var after := pages + [resp];
    assert forall i :: 0 <= i < |pages| ==> after[i] == pages[i];
  }

  lemma ExtendedCover(store: seq<VisibilityRecord>, pageSize: int, pages: seq<SearchAfterResponse>,
                      resp: SearchAfterResponse)
    requires pageSize >= 1
    requires Covers(store, pageSize, pages)
    requires pages[|pages| - 1].actualHits == pageSize
    requires resp.records == Take(store[|Records(pages)|..], pageSize)
    requires resp.actualHits == |resp.records|
    requires resp.nextPageToken ==
      (if |resp.records| == 0 then None else Some(Serialize(KeyOf(store[|Records(pages)| - 1 + |resp.records|]))))
    ensures Covers(store, pageSize, pages + [resp])
    ensures |Records(pages + [resp])| > |Records(pages)|
            || (|Records(pages + [resp])| == |store| && resp.actualHits < pageSize)
  {
    var after := pages + [resp];
    ExtendedPrefix(store, pageSize, pages, resp);
    var grown := Records(after);
    assert after[|after| - 1] == resp;
    assert |after| - 1 == |pages|;
    assert |grown| <= |store| && grown == store[..|grown|];
    assert |grown| == (|after| - 1) * pageSize + after[|after| - 1].actualHits;
    if resp.actualHits < pageSize {
      assert |grown| == |store|;
    } else {
      assert |grown| >= 1;
      assert resp.nextPageToken == Some(Serialize(KeyOf(store[|grown| - 1])));
    }
    assert Covers(store, pageSize, after);
  }

  /** The records after one more response are still a prefix of the store,
      grown by that response's hits. */
  lemma ExtendedPrefix(store: seq<VisibilityRecord>, pageSize: int, pages: seq<SearchAfterResponse>,
                       resp: SearchAfterResponse)
    requires pageSize >= 1
    requires Covers(store, pageSize, pages)
    requires pages[|pages| - 1].actualHits == pageSize
    requires resp.records == Take(store[|Records(pages)|..], pageSize)
    requires resp.actualHits == |resp.records|
    ensures var grown := Records(pages + [resp]);
      && |grown| == |Records(pages)| + resp.actualHits <= |store|
      && grown == store[..|grown|]
      && |grown| == |pages| * pageSize + resp.actualHits
      && (resp.actualHits < pageSize ==> |grown| == |store|)
  {
    var seen := |Records(pages)|;
    AppendPage(pages, resp);
    PrefixThenTake(store, seen, pageSize);
    NextMultiple(|pages| - 1, pageSize);
  }

  /** The traversal loop of `main` (lines 222-244) against a sorted store with
      `pageSize >= 1` (guaranteed by the input defaulting). It visits every
      record exactly once in sort order and stops after `M/P + 1` fetches. */
  method Traverse(store: seq<VisibilityRecord>, pageSize: int, took: nat -> int, latency: nat -> int)
    returns (pages: seq<SearchAfterResponse>, summary: TraversalSummary)
    requires Sorted(store)
    requires pageSize >= 1
    ensures |pages| == |store| / pageSize + 1
    ensures Records(pages) == store
    ensures forall i :: 0 <= i < |pages| - 1 ==> pages[i].actualHits == pageSize
    ensures pages[|pages| - 1].actualHits < pageSize
    ensures forall i :: 0 <= i < |pages| ==> pages[i].tookInMillis == took(i) && pages[i].latency == latency(i)
    ensures summary == Summarize(pages)
    ensures summary.numOfPages >= 1 && summary.totalHits == |store|
    ensures summary.firstPageTook == took(0)
    ensures summary.totalTime == SumOf(took, |pages|) && summary.latency == SumOf(latency, |pages|)
  {
    var request := SearchAfterRequest(pageSize, None);
    var resp := FetchFirst(store, request, took(0), latency(0));
    pages := [resp];
    Started(store, pageSize, resp, took, latency);
    var numOfPages := 1;
    var firstPageTook := resp.tookInMillis;
    var totalTime := resp.tookInMillis;
    var totalHits := resp.actualHits;
    var totalLatency := resp.latency;
    while resp.actualHits == pageSize
      invariant request.pageSize == pageSize
      invariant Fetched(store, pageSize, pages, took, latency)
      invariant resp == pages[|pages| - 1]
      invariant numOfPages == |pages| && firstPageTook == pages[0].tookInMillis
      invariant totalTime == SumTook(pages) && totalHits == SumHits(pages) && totalLatency == SumLatency(pages)
      invariant totalHits == |Records(pages)|
      decreases |store| - totalHits + (if resp.actualHits == pageSize then 1 else 0)
    {
      request, resp := Step(store, request, pages, took, latency);
      AppendPage(pages, resp);
      pages := pages + [resp];
      numOfPages := numOfPages + 1;
      totalTime := totalTime + resp.tookInMillis;
      totalHits := totalHits + resp.actualHits;
      totalLatency := totalLatency + resp.latency;
    }
    Finished(store, pageSize, pages, took, latency);
    summary := TraversalSummary(numOfPages, firstPageTook, totalTime, totalHits, totalLatency);
    SumsOfInputs(pages, took, latency);
  }

  /** Page `i` reporting the inputs of fetch `i` makes the totals the sums of
      the inputs over the fetches made. */
  lemma {:induction false} SumsOfInputs(pages: seq<SearchAfterResponse>, took: nat -> int, latency: nat -> int)
    requires forall i :: 0 <= i < |pages| ==> pages[i].tookInMillis == took(i) && pages[i].latency == latency(i)
    ensures SumTook(pages) == SumOf(took, |pages|)
    ensures SumLatency(pages) == SumOf(latency, |pages|)
  {
    if pages != [] {
      var init := pages[..|pages| - 1];
      assert forall i :: 0 <= i < |init| ==> init[i] == pages[i];
      SumsOfInputs(init, took, latency);
    }
  }

  lemma Started(store: seq<VisibilityRecord>, pageSize: int, resp: SearchAfterResponse,
                took: nat -> int, latency: nat -> int)
    requires pageSize >= 1
    requires resp.records == Take(store, pageSize)
    requires resp.actualHits == |resp.records|
    requires resp.tookInMillis == took(0) && resp.latency == latency(0)
    requires resp.nextPageToken ==
      (if |store| >= pageSize then Some(Serialize(KeyOf(store[pageSize - 1]))) else None)
    ensures Fetched(store, pageSize, [resp], took, latency)
  {
    assert Shaped(pageSize, [resp], took, latency);
    StartedCovers(store, pageSize, resp);
  }

  lemma StartedCovers(store: seq<VisibilityRecord>, pageSize: int, resp: SearchAfterResponse)
    requires pageSize >= 1
    requires resp.records == Take(store, pageSize)
    requires resp.actualHits == |resp.records|
    requires resp.nextPageToken ==
      (if |store| >= pageSize then Some(Serialize(KeyOf(store[pageSize - 1]))) else None)
    ensures Covers(store, pageSize, [resp])
  {
    assert Records([resp]) == [] + resp.records;
    var n := |resp.records|;
    assert n <= |store| && resp.records == store[..n];
    assert (|[resp]| - 1) * pageSize == 0;
    assert n == pageSize ==> resp.nextPageToken == Some(Serialize(KeyOf(store[n - 1])));
  }

  lemma Finished(store: seq<VisibilityRecord>, pageSize: int, pages: seq<SearchAfterResponse>,
                 took: nat -> int, latency: nat -> int)
    requires pageSize >= 1
    requires Fetched(store, pageSize, pages, took, latency)
    requires pages[|pages| - 1].actualHits != pageSize
    ensures |pages| == |store| / pageSize + 1
    ensures Records(pages) == store
  {
    DivideExactly(|store|, |pages| - 1, pageSize, pages[|pages| - 1].actualHits);
  }

  /** Records seen and hits counted agree page by page. */
  lemma {:induction false} HitsCountRecords(pages: seq<SearchAfterResponse>)
    requires forall i :: 0 <= i < |pages| ==> pages[i].actualHits == |pages[i].records|
    ensures SumHits(pages) == |Records(pages)|
  {
    if pages != [] {
      HitsCountRecords(pages[..|pages| - 1]);
    }
  }
}

=== FILE: visibility.dfy ===
/** The visibility record stored in the index and the sort order the
    search-after query imposes on it: CloseTime descending, then RunID
    descending. */
module Visibility {
  import opened GoInt

  datatype VisibilityRecord = VisibilityRecord(
    workflowID: string,
    runID: string,
    workflowType: string,
    startTime: Int64,
    closeTime: Int64,
    closeStatus: int,
    historyLength: Int64)

  /** `PageToken`: the sort values of a hit, which is also what a page token carries. */
  datatype PageToken = PageToken(closeTime: Int64, runID: string)

  function KeyOf(r: VisibilityRecord): PageToken {
    PageToken(r.closeTime, r.runID)
  }

  /** Lexicographic order on strings by code point; for well-formed UTF-8
      this coincides with the byte order a keyword field is sorted by. */
  predicate LexLess(a: string, b: string)
    decreases |a|
  {
    if a == [] then b != []
    else if b == [] then false
    else if a[0] != b[0] then a[0] < b[0]
    else LexLess(a[1..], b[1..])
  }

  /** `a` is returned strictly before `b` under
      `Sort("CloseTime", false).Sort("RunID", false)`. */
  predicate Precedes(a: PageToken, b: PageToken) {
    a.closeTime > b.closeTime || (a.closeTime == b.closeTime && LexLess(b.runID, a.runID))
  }

  lemma {:induction false} LexLessIrreflexive(a: string)
    ensures !LexLess(a, a)
  {
    if a != [] {
      LexLessIrreflexive(a[1..]);
    }
  }

  lemma {:induction false} LexLessAsymmetric(a: string, b: string)
    ensures !(LexLess(a, b) && LexLess(b, a))
    decreases |a|
  {
    if a != [] && b != [] && a[0] == b[0] {
      LexLessAsymmetric(a[1..], b[1..]);
    }
  }

  lemma {:induction false} LexLessTrichotomy(a: string, b: string)
    ensures LexLess(a, b) || a == b || LexLess(b, a)
    decreases |a|
  {
    if a != [] && b != [] && a[0] == b[0] {
      LexLessTrichotomy(a[1..], b[1..]);
      if a[1..] == b[1..] {
        assert a == [a[0]] + a[1..] && b == [b[0]] + b[1..];
      }
    }
  }

  /** Byte order on run ids is transitive. */
  lemma {:induction false} LexLessTransitive(a: string, b: string, c: string)
    requires LexLess(a, b) && LexLess(b, c)
    ensures LexLess(a, c)
    decreases |a|
  {
    if a != [] && a[0] == b[0] && b[0] == c[0] {
      LexLessTransitive(a[1..], b[1..], c[1..]);
    }
  }

  /** The sort order is transitive on keys. */
  lemma PrecedesTransitive(a: PageToken, b: PageToken, c: PageToken)
    requires Precedes(a, b) && Precedes(b, c)
    ensures Precedes(a, c)
  {
    if a.closeTime == b.closeTime == c.closeTime {
      LexLessTransitive(c.runID, b.runID, a.runID);
    }
  }

  /** The sort order is a strict total order on keys: no key precedes itself,
      two keys never precede each other, and two distinct keys are ordered. */
  lemma PrecedesStrictTotal(a: PageToken, b: PageToken)
    ensures !Precedes(a, a)
    ensures !(Precedes(a, b) && Precedes(b, a))
    ensures a != b ==> Precedes(a, b) || Precedes(b, a)
  {
    LexLessIrreflexive(a.runID);
    LexLessAsymmetric(a.runID, b.runID);
    LexLessTrichotomy(a.runID, b.runID);
  }

  /** The matching records as the index returns them: every earlier record
      strictly precedes every later one. */
  predicate Sorted(s: seq<VisibilityRecord>) {
    forall i, j :: 0 <= i < j < |s| ==> Precedes(KeyOf(s[i]), KeyOf(s[j]))
  }
}

=== FILE: wrappers.dfy ===
// The two shapes a Go result takes in this model.
module Wrappers {

  // A value the Go code may leave unset: a nil *string token, a missing
  // sort value, a document that is not in the index.
  datatype Option<T> = None | Some(value: T)

  // A Go call that either returns its value or ends the process with a
  // panic / log.Fatalf; `error` names which failure it was. The three
  // members below are what lets `:-` stop at the first failure, as the
  // `if err != nil { panic(err) }` chains in the source do.
  datatype Result<R, E> = Success(value: R) | Failure(error: E) {
    predicate IsFailure() {
      Failure?
    }

    function PropagateFailure<U>(): Result<U, E>
      requires Failure?
    {
      Failure(error)
    }

    function Extract(): R
      requires Success?
    {
      value
    }
  }
}
